=== FILE: README.md ===
# EcoFlow BLE adapters: Delta 2 and Wave 2 core logic in Dafny

This project models the pure decision logic of two EcoFlow device adapters
of the `ef_ble` Home Assistant integration, and proves properties of it:

- **Varints and tagged fields** (`varint.dfy`, `tagged_fields.dfy`). The
  Delta 2 adapter writes PD100 configuration commands as Protocol-Buffers-style
  fields: a key `(field << 3) | wire_type`, then the value, both as unsigned
  base-128 varints (unsigned LEB128, section 7.6 of the DWARF 4 standard).
  The model covers the varint encoder and decoder and the field and
  "read action" encoders. It also covers the scanning parser, which keeps
  only varint-typed fields, skips wire types 1, 2 and 5, and stops at any
  other wire type. Each of the four loops of this code (`_encode_varint`,
  `_decode_varint`, `_encode_pd100_config_read_actions` and
  `_parse_pd100_varint_fields`) is modelled twice: as a method that follows
  it loop for loop, and as a recursive function that the lemmas reason
  about. A proof links the two.
- **Delta 2 derivations** (`delta2.py` → `delta2.dfy`). This covers:
  - the serial-number check;
  - the routing of `(src, cmdSet, cmdId)` to a record kind in `data_parse`;
  - the state of charge of one battery pack from its BMS heartbeat;
  - the state of charge of the whole station from both packs;
  - the product type from the kit list;
  - the 12 V port address, which depends on the product type;
  - the effect of one notification on these properties.
- **`IntFieldValue` helpers** (`enums.py` → `enums.dfy`). An enumeration is
  its ordered list of `(name, value)` members. A member that repeats an
  earlier value is an alias, as in Python's `enum`. The model covers:
  - `from_value`, with its `UNKNOWN` fallback and the error raised when there
    is no `UNKNOWN`;
  - `state_name` and `str_from_value`;
  - `options`, with `include_unknown` and `exclude`.
- **Wave 2 drain logic** (`wave2.py` → `wave2.dfy`). This covers:
  - the enumerations;
  - how the device's `wte_fth_en` code reads as a drain mode
    (`DrainMode.from_wte`) and as the `automatic_drain` flag;
  - the code each command writes (`set_drain_mode`, `enable_automatic_drain`,
    `set_main_mode` and the other setters);
  - the fixed header of every configuration packet;
  - `data_parse`.

`base.dfy` holds the shared vocabulary:
- bytes as integers in `[0, 256)`;
- `Option` for Python's `None`;
- the routed `Packet` record `(src, dst, cmdSet, cmdId, payload, version)`.

The collaborators below are function parameters:
- `round(x, 2)` is the parameter `rnd: real -> real`;
- the mapping of a decoded record onto the device properties
  (`update_from_bytes` through `raw_field`) is `Decoders.project` in Delta 2
  and `project` in Wave 2;
- the decoded BMS heartbeat and kit-list records of Delta 2 are
  `Decoders.bms` and `Decoders.kits`.

Every contract holds for any behaviour of these parameters, with three
exceptions:
- `Delta2.DataParseFrame` and `Delta2.Dc12vDstFollowsKits` assume a
  projection that writes only record fields
  (`Delta2.ProjectionKeepsDerived`): it leaves the serial, the product type
  and the stored BMS records alone, and it writes a pack level only from
  that pack's own record;
- `Delta2.BatteryLevelIsPercentage` assumes a rounding `rnd` that maps
  every value in `[0, 100]` into `[0, 100]`.

`_decode_varint` raises nothing on a truncated varint: it returns the
groups read so far and the buffer length (`Varint.DecodeTruncated`).

## Model

| member | source | states |
|---|---|---|
| Varint.Encode | custom_components/ef_ble/eflib/devices/delta2.py:271-282 | The encoding is never empty and is a single byte exactly for values below 0x80. Every byte but the last carries the continuation bit. The value fits in 7 bits per byte written. |
| Varint.EncodeEndsVarint | custom_components/ef_ble/eflib/devices/delta2.py:271-282 | Only the last byte of an encoding lacks the continuation bit, so a reader knows where it ends. |
| Varint.EncodeLoop | custom_components/ef_ble/eflib/devices/delta2.py:271-282 | The `while True` loop that masks, shifts and appends yields exactly the encoding. |
| Varint.Decode | custom_components/ef_ble/eflib/devices/delta2.py:322-334 | The returned index never goes back. From an index at or past the end, the result is `(0, i)`. From any other index, the returned index is after `i` and at most `len(p)`. |
| Varint.DecodeStopsAtTerminator | custom_components/ef_ble/eflib/devices/delta2.py:327-333 | Every byte read except the last carries the continuation bit. The last byte clears it unless the buffer ran out. The value has at most 7 bits per byte read. |
| Varint.DecodeLoop | custom_components/ef_ble/eflib/devices/delta2.py:322-334 | The loop that ORs each 7-bit group in at an increasing shift returns exactly the decoded value and index. The OR equals addition because the accumulator stays below 2^shift. |
| Varint.DecodeEncodedAt | custom_components/ef_ble/eflib/devices/delta2.py:322-334 | An encoding found at any offset of a buffer decodes to its value and to the index just past it, whatever follows. |
| Varint.RoundTrip | custom_components/ef_ble/eflib/devices/delta2.py:322-334 | Decoding the encoding of `v` followed by any suffix from index 0 gives `(v, len(encoding))`. |
| Varint.DecodeTruncated | custom_components/ef_ble/eflib/devices/delta2.py:327-334 | An encoding cut after `k` bytes by the end of the buffer decodes without error. The result is the value's low `7k` bits, with the index at the end of the buffer. |
| Varint.Examples | custom_components/ef_ble/eflib/devices/delta2.py:271-282 | 0 encodes as `[0x00]` and 300 as `[0xAC, 0x02]`, and `[0xAC, 0x02]` decodes to `(300, 2)`. |
| TaggedFields.Key | custom_components/ef_ble/eflib/devices/delta2.py:267 | The key `(field << 3) \| wire` gives back the field number as `key >> 3` and the wire type as `key & 7`. |
| TaggedFields.EncodeConfigField | custom_components/ef_ble/eflib/devices/delta2.py:265-269 | An entry is at least two bytes. The low three bits of its first byte are wire type 0. A field number below 16 gives the one-byte key `field << 3`, followed by the value's varint. |
| TaggedFields.EncodeReadAction | custom_components/ef_ble/eflib/devices/delta2.py:284-287 | Every read-action entry opens with the one-byte key 0x08, field 1 with wire type 0, followed by the action id's varint. |
| TaggedFields.EncodeReadActions | custom_components/ef_ble/eflib/devices/delta2.py:289-294 | The payload is empty exactly when there are no action ids. |
| TaggedFields.EncodeReadActionsLoop | custom_components/ef_ble/eflib/devices/delta2.py:289-294 | The `for` loop that extends the payload entry by entry yields exactly the concatenated entries. |
| TaggedFields.EncodeReadActionsAppend | custom_components/ef_ble/eflib/devices/delta2.py:292-293 | Appending an id to the list appends its entry to the payload, so entries appear in the order of the ids. |
| TaggedFields.ScanStep | custom_components/ef_ble/eflib/devices/delta2.py:302-318 | Each iteration of the scan that does not stop moves the cursor forward, so the scan terminates. |
| TaggedFields.ParseFrom | custom_components/ef_ble/eflib/devices/delta2.py:302-320 | The scan only adds or overwrites entries: every field collected before the cursor is still in the result. At or past the end of the buffer nothing more is read. |
| TaggedFields.Parse | custom_components/ef_ble/eflib/devices/delta2.py:296-320 | An empty payload has no fields. |
| TaggedFields.ParseLoop | custom_components/ef_ble/eflib/devices/delta2.py:296-320 | The loop with its wire-type dispatch returns exactly the parsed fields. |
| TaggedFields.ParseConfigFieldAt | custom_components/ef_ble/eflib/devices/delta2.py:303-309 | A varint entry at the cursor adds `field: value` to the fields collected so far. The scan resumes right after the entry. |
| TaggedFields.ParseConfigField | custom_components/ef_ble/eflib/devices/delta2.py:265-269 | Parsing one encoded configuration field gives exactly `{field: value}`. |
| TaggedFields.ParseRun | custom_components/ef_ble/eflib/devices/delta2.py:302-309 | Over a run of field-1 entries, each later entry overwrites the earlier one. Only the last id remains, on top of the fields collected before. |
| TaggedFields.ParseReadActions | custom_components/ef_ble/eflib/devices/delta2.py:284-294 | Parsing the encoded read actions of `ids` gives `{1: ids[-1]}`, or `{}` when `ids` is empty. |
| TaggedFields.SkipFixed64 | custom_components/ef_ble/eflib/devices/delta2.py:310-311 | A wire-type-1 key is skipped with the 8 bytes after it, even past the end of the buffer. Nothing is recorded. |
| TaggedFields.SkipFixed32 | custom_components/ef_ble/eflib/devices/delta2.py:315-316 | A wire-type-5 key is skipped with the 4 bytes after it. Nothing is recorded. |
| TaggedFields.SkipLengthDelimited | custom_components/ef_ble/eflib/devices/delta2.py:312-314 | A wire-type-2 key is skipped with its length varint and as many bytes as that length says. Nothing is recorded. |
| TaggedFields.StopOnUnknownWireType | custom_components/ef_ble/eflib/devices/delta2.py:317-318 | At any cursor, a key of any other wire type ends the scan. Everything from that key on is ignored, and the fields collected so far are the result; after a configuration field, parsing keeps exactly that field (`StopAfterConfigField`). |
| TaggedFields.StopAfterConfigField | custom_components/ef_ble/eflib/devices/delta2.py:302-318 | A configuration field followed by a key of an unknown wire type and anything at all parses to exactly `{field: value}`. |
| TaggedFields.Examples | custom_components/ef_ble/eflib/devices/delta2.py:284-294 | The read actions `[41, 144]` encode as `[0x08, 0x29, 0x08, 0x90, 0x01]`. Field 1 with value 41 parses back to `{1: 41}`. |
| Enums.Lookup | custom_components/ef_ble/eflib/props/enums.py:11 | `cls(value)` yields a member exactly when some member has that value, and the member yielded has that value. |
| Enums.UnknownMember | custom_components/ef_ble/eflib/props/enums.py:31 | `getattr(cls, "UNKNOWN", None)` is a member exactly when the class declares the name `UNKNOWN`. |
| Enums.FromValue | custom_components/ef_ble/eflib/props/enums.py:8-14 | A declared value yields a member with that value. An undeclared value yields the `UNKNOWN` member. The call fails exactly when the value is undeclared and there is no `UNKNOWN`. |
| Enums.FromValueFallsBackToUnknown | custom_components/ef_ble/eflib/props/enums.py:12-14 | In an enumeration that declares `UNKNOWN`, an undeclared value yields a member with `UNKNOWN`'s value. That member is `UNKNOWN` itself unless `UNKNOWN` is an alias. |
| Enums.FromValueOfMember | custom_components/ef_ble/eflib/props/enums.py:9-11 | A member that no earlier member aliases is what `from_value` returns for its value. |
| Enums.Lower | custom_components/ef_ble/eflib/props/enums.py:22 | Lower-casing keeps the length, maps every character on its own, and leaves no upper-case letter. |
| Enums.StateName | custom_components/ef_ble/eflib/props/enums.py:20-22 | The state name is as long as the member name and already in lower case. |
| Enums.LowerIdempotent | custom_components/ef_ble/eflib/props/enums.py:20-22 | A state name is already lower case: lower-casing it again changes nothing. |
| Enums.StrFromValue | custom_components/ef_ble/eflib/props/enums.py:16-18 | The state name is defined exactly when `from_value` succeeds. It is the lower-cased name of the member `cls(value)` for a declared value, and of `UNKNOWN` otherwise. |
| Enums.MembersFrom | custom_components/ef_ble/eflib/props/enums.py:30 | Iterating the class visits every member that is not an alias. |
| Enums.MembersWithoutAliases | custom_components/ef_ble/eflib/props/enums.py:30 | Without repeated values, iteration visits every declared member in declaration order. |
| Enums.MembersAreLookups | custom_components/ef_ble/eflib/props/enums.py:30 | Iteration visits exactly the declared members that `cls(value)` returns for their own value. |
| Enums.Options | custom_components/ef_ble/eflib/props/enums.py:24-33 | There are no more options than declared members. Every option is the state name of a declared member whose value is not excluded. With the default arguments, every declared member that is not an alias is listed by name. |
| Enums.OptionsOf | custom_components/ef_ble/eflib/props/enums.py:28-33 | The result is no longer than the members. It names every kept member, and every name in it is the name of a kept member. |
| Enums.OptionsOfAppend | custom_components/ef_ble/eflib/props/enums.py:28-33 | The options are built member by member in iteration order. The names for `a + b` are the names for `a` followed by the names for `b`. |
| Enums.OptionsDefaults | custom_components/ef_ble/eflib/props/enums.py:25-27 | With `include_unknown=True` and `exclude=[]`, the options are the state names of all iterated members, in order. |
| Enums.OptionsExact | custom_components/ef_ble/eflib/props/enums.py:24-33 | When the state names of the members differ, the options repeat no name and are no longer than the members. A member's name is listed exactly when the member is not `UNKNOWN` (or `include_unknown` holds) and its value is not excluded. |
| Delta2.Check | custom_components/ef_ble/eflib/devices/delta2.py:146-148 | A serial is claimed exactly when it starts with `R331` or `R335`. |
| Delta2.Route | custom_components/ef_ble/eflib/devices/delta2.py:168-198 | The inverter record is chosen exactly for source 0x04 and command id 0x02, whatever the command set. Any other record is chosen only from its full `(src, cmdSet, cmdId)` address. |
| Delta2.RouteMatchesAddresses | custom_components/ef_ble/eflib/devices/delta2.py:168-198 | Every record kind is routed from its own `(src, cmdSet, cmdId)`. A packet is routed to a kind only from that kind's address; the inverter record is accepted under any command set. The match has no overlapping or unreachable case. |
| Delta2.DetermineBmsSoc | custom_components/ef_ble/eflib/devices/delta2.py:127-138 | A level is derived exactly when `f32_show_soc` or `soc` is present. With both present, the result is the rounded `f32_show_soc` while the pack charges and `soc` otherwise. With only one present, the result is that one. |
| Delta2.SetBmsSoc | custom_components/ef_ble/eflib/devices/delta2.py:115-125 | A heartbeat never erases a known pack level. The level is either kept or the one derived from the heartbeat. A heartbeat carrying `f32_show_soc` or `soc` always takes effect, and one carrying neither leaves the level as it was. |
| Delta2.SetBmsSocIdempotent | custom_components/ef_ble/eflib/devices/delta2.py:115-125 | Applying the same heartbeat twice leaves the same pack level as applying it once. |
| Delta2.UpdateBatteryLevel | custom_components/ef_ble/eflib/devices/delta2.py:94-113 | The rules are tried in order: with a non-zero total design capacity, the rounded remaining/design ratio in percent; with both pack levels, their rounded mean; with one pack level, that level; otherwise the old level. |
| Delta2.BatteryLevelIsPercentage | custom_components/ef_ble/eflib/devices/delta2.py:94-113 | Assume the capacities are non-negative, the remaining capacity does not exceed the design capacity, the inputs are percentages, and rounding keeps percentages. Then the station level is a percentage. |
| Delta2.BatteryLevelSettles | custom_components/ef_ble/eflib/devices/delta2.py:94-113 | Deriving the station level again right after deriving it changes nothing. |
| Delta2.StripNul | custom_components/ef_ble/eflib/devices/delta2.py:253 | `rstrip(b"\x00")` gives a prefix that does not end in NUL, and everything it removes is NUL. |
| Delta2.MatchingKit | custom_components/ef_ble/eflib/devices/delta2.py:252-255 | The result is the first kit whose stripped serial is the device serial, or none when no kit matches. |
| Delta2.UpdateProductType | custom_components/ef_ble/eflib/devices/delta2.py:248-256 | A missing or empty kit list leaves the product type unchanged. Otherwise the product type comes from the first kit carrying the device serial, or from the first kit when none does. |
| Delta2.Dc12vDst | custom_components/ef_ble/eflib/devices/delta2.py:258-259 | The 12 V port is addressed at 0x07 exactly for product type 82, and at 0x05 otherwise, including while the type is unknown. |
| Delta2.Dc12vDstFollowsKits | custom_components/ef_ble/eflib/devices/delta2.py:248-259 | After a kit-details packet with kits, the 12 V address is 0x07 exactly when the chosen kit has product type 82. The chosen kit is the first one carrying this device's serial, or the first kit when none does. Any other packet leaves the address as it was. |
| Delta2.DataParse | custom_components/ef_ble/eflib/devices/delta2.py:162-207 | A packet is processed exactly when it is routed, and an unrouted packet changes nothing. The rest is stated relative to the state after the record is projected. Kit details set the product type from the kit list; other records keep the projected type. A BMS heartbeat records its message and sets its own pack level from it; the other pack's record and level stay as projected, and any other record keeps both packs' records and levels as projected. Every other property is the projected one. The station level is derived from the projected level and the readings after the packet. |
| Delta2.DataParseFrame | custom_components/ef_ble/eflib/devices/delta2.py:162-207 | Assume the projection writes only record fields: not the serial, the product type or the stored BMS records, and a pack level only from that pack's own record. Then `data_parse` keeps the serial. Only kit details change the product type. Only a pack's own BMS heartbeat changes its level or its stored record. |
| Wave2.MainModeFromValue | custom_components/ef_ble/eflib/devices/wave2.py:18-21 | `MainMode.from_value` yields the member declared with codes 0 to 2. Any other code fails, since there is no `UNKNOWN`. The declared codes are exactly the codes of the model's `MainMode` values. |
| Wave2.DrainModeFromValue | custom_components/ef_ble/eflib/devices/wave2.py:44-46 | `DrainMode.from_value` yields the member declared with codes 0 and 1. Any other code fails, since there is no `UNKNOWN`. The declared codes are exactly the codes of the model's `DrainMode` values. |
| Wave2.DeclaredCodes | custom_components/ef_ble/eflib/devices/wave2.py:12-41 | The fan gear, power mode, sub mode and water level codes are declared exactly when they are below the number of members. |
| Wave2.FromWte | custom_components/ef_ble/eflib/devices/wave2.py:48-52 | The drain mode is DRAIN_FREE exactly for code 3, or for code 1 under COLD. |
| Wave2.AutomaticDrain | custom_components/ef_ble/eflib/devices/wave2.py:78 | Automatic drain is on exactly for codes 0 and 1. |
| Wave2.ConfigPacket | custom_components/ef_ble/eflib/devices/wave2.py:127-137 | Every configuration packet goes from 0x21 to 0x42 under command set 0x42 with version 2, carrying the given command id and payload. |
| Wave2.DrainModeCode | custom_components/ef_ble/eflib/devices/wave2.py:158-164 | The code is at most 3. With automatic drain off it is 2 for EXTERNAL and 3 for DRAIN_FREE. With it on outside COLD it is 1. Under COLD it is the drain mode's value. |
| Wave2.SetDrainMode | custom_components/ef_ble/eflib/devices/wave2.py:158-165 | One configuration packet 0x59 whose one-byte payload is the drain-mode code, at most 3. |
| Wave2.SetDrainModeReadsBack | custom_components/ef_ble/eflib/devices/wave2.py:158-165 | The code sent reads back with the current automatic-drain flag. It reads back as the requested drain mode, except with automatic drain on outside COLD, where it reads back as EXTERNAL. |
| Wave2.EnableAutomaticDrainBranchCode | custom_components/ef_ble/eflib/devices/wave2.py:147-152 | The branches compute what `set_drain_mode` would write for the current drain mode (EXTERNAL when missing) with automatic drain set to the requested flag. |
| Wave2.EnableAutomaticDrainCode | custom_components/ef_ble/eflib/devices/wave2.py:154 | Bit 1 of the code is set exactly when disabling. Bit 0 is the current drain mode, a missing one counting as EXTERNAL. The code reads back as the requested flag. |
| Wave2.EnableAutomaticDrain | custom_components/ef_ble/eflib/devices/wave2.py:142-156 | One configuration packet 0x59 carrying that code. |
| Wave2.EnableAutomaticDrainIgnoresMainMode | custom_components/ef_ble/eflib/devices/wave2.py:142-156 | The packet sent does not depend on the main mode. |
| Wave2.EnableAutomaticDrainOverwriteIsHarmless | custom_components/ef_ble/eflib/devices/wave2.py:147-154 | The overwritten branch result differs from the code sent only when enabling outside COLD with drain mode EXTERNAL. Both codes read back as the same flag and drain mode. |
| Wave2.EnableAutomaticDrainReadsBack | custom_components/ef_ble/eflib/devices/wave2.py:142-156 | The code sent reads back as the requested flag. It reads back as the current drain mode, except when enabling outside COLD, where it reads back as EXTERNAL. |
| Wave2.MainModeForcesExternal | custom_components/ef_ble/eflib/devices/wave2.py:171-177 | The drain is forced only when the recorded drain mode is not EXTERNAL. Under the new main mode, every automatic-drain code then reads back as EXTERNAL. Nothing is forced when automatic drain is off or the new mode is COLD. |
| Wave2.SetMainMode | custom_components/ef_ble/eflib/devices/wave2.py:170-184 | Packet 0x51 with the mode byte is always sent first. The second packet, 0x59 with code 1 and the drain mode set to EXTERNAL, follows exactly when automatic drain is on, the drain mode is not EXTERNAL and the new mode is not COLD. Otherwise the state is unchanged. |
| Wave2.SetMainModeKeepsDrainConsistent | custom_components/ef_ble/eflib/devices/wave2.py:170-184 | When the drain is forced, the code sent reads back under the new main mode as automatic drain on, with the drain mode EXTERNAL that is recorded. |
| Wave2.Send | custom_components/ef_ble/eflib/devices/wave2.py:139-194 | Every command sends at least one configuration packet with a one-byte payload. Each command's packets are stated: 0x5C with 0x01 or 0x02 for the ambient light, the drain packets of `enable_automatic_drain` and `set_drain_mode`, 0x5E with the gear, the packets of `set_main_mode`, 0x5B with the power mode, 0x58 with the temperature, and 0x52 with the sub mode. Only `set_main_mode` changes the state. A command fails exactly for a temperature outside one unsigned byte. |
| Wave2.Check | custom_components/ef_ble/eflib/devices/wave2.py:96-98 | A serial is claimed exactly when its first four bytes are `KT21`. |
| Wave2.DataParse | custom_components/ef_ble/eflib/devices/wave2.py:103-125 | A packet is processed exactly for `(0x42, 0x42, 0x50)`, and any other packet changes nothing. The drain mode is recomputed, and pushed, exactly when the projected record has both `wte_fth_en` and the main mode. No other property is touched beyond the projection. |

## Left out

- Packet framing is not modelled: XOR de-obfuscation, checksums and `Packet.fromBytes`/serialisation. `Packet` is an opaque record of header fields and payload, because the packet module is not part of this model.
- The `RawData` record decoder, `raw_field`/`dataclass_attr_mapper` and `update_from_bytes` are function parameters rather than models, because their implementations are not part of this model.
- The `updated_fields` change tracking and the `update_callback`/`update_state` dispatch in both `data_parse` methods are left out. They are notifications to Home Assistant with no effect on the modelled state. Wave 2's explicit push of `drain_mode` is kept as a flag.
- Async sending through `self._conn.sendPacket` is left out. Commands return the packets they would send, in order.
- `round(x, 2)` and float division are left out; rounding is the parameter `rnd`. Contracts state which rule is chosen, not the rounded digits.
- Logging in `from_value` is left out, and so is the `device` display-name property.
- The Delta 2 setters (`set_battery_charge_limit_*`, `set_energy_backup_battery_level`, `enable_usb_ports`, `enable_dc_12v_port`, `enable_ac_ports`) are left out, apart from the `_dc_12v_dst` address choice. They only place a caller's value into a fixed packet.
- `_as_single_byte` is left out because nothing in the modelled core calls it.
- The unused `_PD100_*` field constants are left out; only the read-action constants are modelled.
- Enums.Lower: lower-cases ASCII letters only. Member names are Python identifiers in upper-case ASCII, so full Unicode `str.lower` is not modelled.
- Wave2.Send: takes fan gears, power modes and sub modes as their enumeration codes, and requires codes that name a member (`Wave2.DeclaredCodes`). `int.to_bytes()` overflow is modelled only for the free integer `set_temperature`.
- Delta2.UpdateProductType: takes the device serial as bytes. This stands for `self._sn.encode()`; string encoding is not modelled.
- Delta2.DataParse: each record kind's projection of fields is a parameter. Its own contract states only what `data_parse` derives on top of the projection. The claims about which packets change which derived property hold for projections that write only record fields (`Delta2.DataParseFrame`).
- Varint.Encode: takes a natural number. `_encode_varint` never terminates on a negative value, because `value >>= 7` stays at -1 and `if value:` stays true. The same holds for a negative field number in `_encode_pd100_config_field`. The model excludes these inputs by type.

=== FILE: base.dfy ===
/** Shared vocabulary of the model: bytes, optional values and the routed
    packet record the device adapters exchange with the framing layer. */
module Base {

  /** One octet, as Python's `bytes` elements. */
  type Byte = b: int | 0 <= b < 256

  /** A Python value that may be `None`. */
  datatype Option<+T> = None | Some(value: T) {

    /** `x or default` for a value that is either `None` or present. */
    function GetOr(default: T): T {
      match this
      case Some(v) => v
      case None => default
    }
  }

  /** A routed frame: the header fields and payload of one packet. The framing
      (length, checksum, XOR obfuscation) is outside this model. */
  datatype Packet = Packet(src: Byte, dst: Byte, cmdSet: Byte, cmdId: Byte, payload: seq<Byte>, version: Byte)

  /** 128^n, the weight of the n-th 7-bit group of a varint (2^(7n)). */
  function Pow128(n: nat): (r: nat)
    ensures r >= 1
  {
    if n == 0 then 1 else 128 * Pow128(n - 1)
  }

  function Last<T>(s: seq<T>): T
    requires |s| > 0
  {
    s[|s| - 1]
  }
}

=== FILE: delta2.dfy ===
/** The Delta 2 adapter's decisions: which record a notification carries, how
    the state of charge of each battery pack and of the whole station is
    derived, which product variant the station is, and which serial numbers
    the adapter claims.

    `round(x, 2)` is the parameter `rnd`; every contract here holds whatever
    rounding it stands for, except `BatteryLevelIsPercentage`, which needs a
    rounding that keeps percentages between 0 and 100. */
module Delta2 {
  import opened Base

  // ---------------------------------------------------------------------
  // Device selection

  const SnR331: seq<Byte> := [0x52, 0x33, 0x33, 0x31]  // b"R331"
  const SnR335: seq<Byte> := [0x52, 0x33, 0x33, 0x35]  // b"R335"

  /** `check`: `sn[:4] in (b"R331", b"R335")`; a serial shorter than four
      bytes is its own four-byte slice and so never matches. */
  function Check(sn: seq<Byte>): (r: bool)
    ensures r <==> SnR331 <= sn || SnR335 <= sn
  {
    var head := sn[..if |sn| < 4 then |sn| else 4];
    assert SnR331 <= sn <==> head == SnR331;
    assert SnR335 <= sn <==> head == SnR335;
    head in {SnR331, SnR335}
  }

  // ---------------------------------------------------------------------
  // Routing of incoming packets

  /** The records a Delta 2 notification can carry. */
  datatype MessageKind =
    | PdHeart               // Mr330PdHeart
    | KitDetail             // AllKitDetailData
    | EmsHeartbeat          // DirectEmsDeltaHeartbeatPack
    | MasterBmsHeartbeat    // DirectBmsMDeltaHeartbeatPack
    | SlaveBmsHeartbeat     // DirectBmsMHeartbeatPack
    | InverterHeartbeat     // DirectInvDelta2HeartbeatPack
    | MpptHeart             // Mr330MpptHeart

  /** The `match packet.src, packet.cmdSet, packet.cmdId` of `data_parse`;
      `None` is a packet the adapter does not process. */
  function Route(src: Byte, cmdSet: Byte, cmdId: Byte): (r: Option<MessageKind>)
    // the inverter case ignores the command set
    ensures r == Some(InverterHeartbeat) <==> src == 0x04 && cmdId == 0x02
    // every other record is matched on its full address only
    ensures r.Some? && r.value != InverterHeartbeat ==> (src, cmdSet, cmdId) == Address(r.value)
  {
    if (src, cmdSet, cmdId) == (0x02, 0x20, 0x02) then Some(PdHeart)
    else if (src, cmdSet, cmdId) == (0x03, 0x03, 0x0E) then Some(KitDetail)
    else if (src, cmdSet, cmdId) == (0x03, 0x20, 0x02) then Some(EmsHeartbeat)
    else if (src, cmdSet, cmdId) == (0x03, 0x20, 0x32) then Some(MasterBmsHeartbeat)
    else if (src, cmdSet, cmdId) == (0x06, 0x20, 0x32) then Some(SlaveBmsHeartbeat)
    else if src == 0x04 && cmdId == 0x02 then Some(InverterHeartbeat)
    else if (src, cmdSet, cmdId) == (0x05, 0x20, 0x02) then Some(MpptHeart)
    else None
  }

  /** The `(src, cmdSet, cmdId)` each record is sent under; the inverter
      record is accepted under any command set, of which 0x20 is an
      arbitrary representative. */
  function Address(k: MessageKind): (Byte, Byte, Byte) {
    match k
    case PdHeart => (0x02, 0x20, 0x02)
    case KitDetail => (0x03, 0x03, 0x0E)
    case EmsHeartbeat => (0x03, 0x20, 0x02)
    case MasterBmsHeartbeat => (0x03, 0x20, 0x32)
    case SlaveBmsHeartbeat => (0x06, 0x20, 0x32)
    case InverterHeartbeat => (0x04, 0x20, 0x02)
    case MpptHeart => (0x05, 0x20, 0x02)
  }

  /** Every record is routed from its address, and a packet is routed to a
      record only from that record's address (any command set for the
      inverter): the match has no overlapping or unreachable case. */
  lemma RouteMatchesAddresses(src: Byte, cmdSet: Byte, cmdId: Byte)
    ensures forall k :: Route(Address(k).0, Address(k).1, Address(k).2) == Some(k)
    ensures Route(src, cmdSet, cmdId).Some? ==>
              var a := Address(Route(src, cmdSet, cmdId).value);
              && src == a.0 && cmdId == a.2
              && (Route(src, cmdSet, cmdId).value != InverterHeartbeat ==> cmdSet == a.1)
    ensures src == 0x04 && cmdId == 0x02 ==> Route(src, cmdSet, cmdId) == Some(InverterHeartbeat)
  {
  }

  // ---------------------------------------------------------------------
  // State of charge of one battery pack

  /** The fields of a BMS heartbeat the adapter derives the pack's state of
      charge from (`DirectBmsMDeltaHeartbeatPack` / `DirectBmsMHeartbeatPack`). */
  datatype BmsHeartbeat = BmsHeartbeat(
    inputWatts: Option<int>,
    outputWatts: Option<int>,
    f32ShowSoc: Option<real>,
    soc: Option<int>)

  /** The pack takes in more power than it gives out; a missing reading
      counts as 0. */
  predicate Charging(msg: BmsHeartbeat) {
    msg.inputWatts.GetOr(0) > msg.outputWatts.GetOr(0)
  }

  /** `_determine_bms_soc`: the precise `f32_show_soc` while charging,
      otherwise the integer `soc`, falling back to whichever is present. */
  function DetermineBmsSoc(msg: BmsHeartbeat, rnd: real -> real): (r: Option<real>)
    ensures r.Some? <==> msg.f32ShowSoc.Some? || msg.soc.Some?
    ensures msg.f32ShowSoc.None? && msg.soc.Some? ==> r == Some(msg.soc.value as real)
    ensures msg.soc.None? && msg.f32ShowSoc.Some? ==> r == Some(rnd(msg.f32ShowSoc.value))
    ensures msg.f32ShowSoc.Some? && msg.soc.Some? ==>
              r == Some(if Charging(msg) then rnd(msg.f32ShowSoc.value) else msg.soc.value as real)
  {
    if Charging(msg) && msg.f32ShowSoc.Some? then Some(rnd(msg.f32ShowSoc.value))
    else if msg.soc.Some? then Some(msg.soc.value as real)
    else if msg.f32ShowSoc.Some? then Some(rnd(msg.f32ShowSoc.value))
    else None
  }

  /** `_set_bms_soc_value`: the pack level after a heartbeat; it is left as
      it was when there is no heartbeat or nothing to derive from it. */
  function SetBmsSoc(target: Option<real>, msg: Option<BmsHeartbeat>, rnd: real -> real): (r: Option<real>)
    // a heartbeat never erases a known pack level
    ensures target.Some? ==> r.Some?
    // the level is either kept or the one derived from the heartbeat
    ensures r == target || (msg.Some? && r == DetermineBmsSoc(msg.value, rnd))
    // a heartbeat carrying either state-of-charge field always takes effect
    ensures msg.Some? && (msg.value.f32ShowSoc.Some? || msg.value.soc.Some?) ==>
              r == DetermineBmsSoc(msg.value, rnd)
    // a heartbeat carrying neither leaves the level as it was
    ensures msg.Some? && msg.value.f32ShowSoc.None? && msg.value.soc.None? ==> r == target
  {
    match msg
    case None => target
    case Some(m) =>
      match DetermineBmsSoc(m, rnd)
      case None => target
      case Some(v) => Some(v)
  }

  /** Applying the same heartbeat twice is the same as applying it once. */
  lemma SetBmsSocIdempotent(target: Option<real>, msg: Option<BmsHeartbeat>, rnd: real -> real)
    ensures SetBmsSoc(SetBmsSoc(target, msg, rnd), msg, rnd) == SetBmsSoc(target, msg, rnd)
  {
  }

  // ---------------------------------------------------------------------
  // Device state

  /** A kit entry of `AllKitDetailData.kit_base_info`. */
  datatype Kit = Kit(sn: seq<Byte>, productType: int)

  /** The properties of a Delta 2 that the derivations read or write. */
  datatype State = State(
    sn: seq<Byte>,
    productType: Option<int>,
    masterBms: Option<BmsHeartbeat>,
    slaveBms: Option<BmsHeartbeat>,
    masterDesignCap: Option<int>,
    masterRemainCap: Option<int>,
    slaveDesignCap: Option<int>,
    slaveRemainCap: Option<int>,
    batteryLevelMain: Option<real>,
    batteryLevelSlave: Option<real>,
    batteryLevel: Option<real>)

  function TotalDesign(st: State): int {
    st.masterDesignCap.GetOr(0) + st.slaveDesignCap.GetOr(0)
  }

  function TotalRemain(st: State): int {
    st.masterRemainCap.GetOr(0) + st.slaveRemainCap.GetOr(0)
  }

  // ---------------------------------------------------------------------
  // State of charge of the station

  /** `_update_battery_level`: the charge ratio of both packs when a design
      capacity is known, else the mean of both pack levels, else the one
      pack level present, else the level is left as it was. */
  function UpdateBatteryLevel(st: State, rnd: real -> real): (r: Option<real>)
    ensures TotalDesign(st) != 0 ==>
              r == Some(rnd(TotalRemain(st) as real / TotalDesign(st) as real * 100.0))
    ensures TotalDesign(st) == 0 && st.batteryLevelMain.Some? && st.batteryLevelSlave.Some? ==>
              r == Some(rnd((st.batteryLevelMain.value + st.batteryLevelSlave.value) / 2.0))
    ensures TotalDesign(st) == 0 && (st.batteryLevelMain.None? || st.batteryLevelSlave.None?) ==>
              r == (if st.batteryLevelMain.Some? then st.batteryLevelMain
                    else if st.batteryLevelSlave.Some? then st.batteryLevelSlave
                    else st.batteryLevel)
  {
    if TotalDesign(st) != 0 then
      Some(rnd(TotalRemain(st) as real / TotalDesign(st) as real * 100.0))
    else if st.batteryLevelMain.Some? && st.batteryLevelSlave.Some? then
      Some(rnd((st.batteryLevelMain.value + st.batteryLevelSlave.value) / 2.0))
    else if st.batteryLevelMain.Some? then st.batteryLevelMain
    else if st.batteryLevelSlave.Some? then st.batteryLevelSlave
    else st.batteryLevel
  }

  predicate IsPercentage(x: Option<real>) {
    x.Some? ==> 0.0 <= x.value <= 100.0
  }

  /** When no pack reports more remaining than design capacity, the pack
      levels are percentages and rounding keeps a percentage a percentage,
      the station level is a percentage too. */
  lemma BatteryLevelIsPercentage(st: State, rnd: real -> real)
    requires forall x :: 0.0 <= x <= 100.0 ==> 0.0 <= rnd(x) <= 100.0
    requires 0 <= st.masterRemainCap.GetOr(0) && 0 <= st.slaveRemainCap.GetOr(0)
    requires TotalRemain(st) <= TotalDesign(st)
    requires IsPercentage(st.batteryLevelMain) && IsPercentage(st.batteryLevelSlave)
    requires IsPercentage(st.batteryLevel)
    ensures IsPercentage(UpdateBatteryLevel(st, rnd))
  {
    if TotalDesign(st) != 0 {
      RatioAtMostOne(TotalRemain(st) as real, TotalDesign(st) as real);
    }
  }

  lemma RatioAtMostOne(a: real, b: real)
    requires 0.0 <= a <= b && b > 0.0
    ensures 0.0 <= a / b <= 1.0
  {
    var q := a / b;
    assert q * b == a;
    assert q > 1.0 ==> q * b > 1.0 * b;
    assert q < 0.0 ==> q * b < 0.0 * b;
  }

  /** The derived level depends on the pack readings only, so deriving it
      again right away changes nothing. */
  lemma BatteryLevelSettles(st: State, rnd: real -> real)
    ensures var st' := st.(batteryLevel := UpdateBatteryLevel(st, rnd));
            UpdateBatteryLevel(st', rnd) == st'.batteryLevel
  {
  }

  // ---------------------------------------------------------------------
  // Product variant

  /** `sn.rstrip(b"\x00")`: the serial without its trailing NUL padding. */
  function StripNul(s: seq<Byte>): (r: seq<Byte>)
    ensures r <= s
    ensures |r| == 0 || Last(r) != 0
    ensures forall k :: |r| <= k < |s| ==> s[k] == 0
  {
    if |s| > 0 && Last(s) == 0 then StripNul(s[..|s| - 1]) else s
  }

  /** The first kit whose stripped serial is the device serial. */
  function MatchingKit(kits: seq<Kit>, sn: seq<Byte>): (r: Option<nat>)
    ensures r.Some? ==> r.value < |kits| && StripNul(kits[r.value].sn) == sn
    ensures r.Some? ==> forall k :: 0 <= k < r.value ==> StripNul(kits[k].sn) != sn
    ensures r.None? ==> forall k :: 0 <= k < |kits| ==> StripNul(kits[k].sn) != sn
  {
    if |kits| == 0 then None
    else if StripNul(kits[0].sn) == sn then Some(0)
    else
      match MatchingKit(kits[1..], sn)
      case Some(j) => Some(j + 1)
      case None => None
  }

  /** `_update_product_type`: the product type of the kit carrying this
      device's serial, else of the first kit; no kits leave it unchanged. */
  function UpdateProductType(kits: Option<seq<Kit>>, sn: seq<Byte>, current: Option<int>): (r: Option<int>)
    ensures kits.None? || |kits.value| == 0 ==> r == current
    ensures kits.Some? && |kits.value| > 0 ==>
              r.Some? && exists k :: 0 <= k < |kits.value| && r.value == kits.value[k].productType
    ensures kits.Some? && (exists k :: 0 <= k < |kits.value| && StripNul(kits.value[k].sn) == sn) ==>
              exists k :: 0 <= k < |kits.value| && StripNul(kits.value[k].sn) == sn
                          && r == Some(kits.value[k].productType)
                          && forall j :: 0 <= j < k ==> StripNul(kits.value[j].sn) != sn
    ensures kits.Some? && |kits.value| > 0 && (forall k :: 0 <= k < |kits.value| ==> StripNul(kits.value[k].sn) != sn) ==>
              r == Some(kits.value[0].productType)
  {
    match kits
    case None => current
    case Some(ks) =>
      if |ks| == 0 then current
      else
        match MatchingKit(ks, sn)
        case Some(j) => Some(ks[j].productType)
        case None => Some(ks[0].productType)
  }

  /** `_dc_12v_dst`: the 12 V port is addressed at 0x07 on product type 82
      and at 0x05 otherwise (also when the type is not known yet). */
  function Dc12vDst(productType: Option<int>): (r: Byte)
    ensures r == 0x07 <==> productType == Some(82)
    ensures r in {0x05, 0x07}
  {
    if productType == Some(82) then 0x07 else 0x05
  }

  // ---------------------------------------------------------------------
  // Processing one notification

  /** What the model takes from the record decoder and the property
      projection, which it does not model: the properties after the
      record's fields are mapped onto the device (`update_from_bytes`),
      and the decoded BMS and kit records. */
  datatype Decoders = Decoders(
    project: (State, MessageKind, seq<Byte>) -> State,
    bms: (MessageKind, seq<Byte>) -> Option<BmsHeartbeat>,
    kits: seq<Byte> -> Option<seq<Kit>>)

  /** The derivations of `data_parse` for one routed record. */
  function Derive(st: State, kind: MessageKind, payload: seq<Byte>, dec: Decoders, rnd: real -> real): State {
    match kind
    case KitDetail =>
      st.(productType := UpdateProductType(dec.kits(payload), st.sn, st.productType))
    case MasterBmsHeartbeat =>
      var m := dec.bms(kind, payload);
      st.(masterBms := m, batteryLevelMain := SetBmsSoc(st.batteryLevelMain, m, rnd))
    case SlaveBmsHeartbeat =>
      var m := dec.bms(kind, payload);
      st.(slaveBms := m, batteryLevelSlave := SetBmsSoc(st.batteryLevelSlave, m, rnd))
    case _ => st
  }

  /** `data_parse`: the new state and whether the packet was processed. */
  function DataParse(st: State, pkt: Packet, dec: Decoders, rnd: real -> real): (r: (State, bool))
    ensures r.1 <==> Route(pkt.src, pkt.cmdSet, pkt.cmdId).Some?
    // an unrouted packet changes nothing
    ensures !r.1 ==> r.0 == st
    // after a routed packet the station level agrees with the pack readings
    ensures r.1 ==> r.0.batteryLevel == UpdateBatteryLevel(r.0, rnd)
    // the station level is derived from the projected level and the
    // readings after the packet
    ensures r.1 ==>
              var projected := dec.project(st, Route(pkt.src, pkt.cmdSet, pkt.cmdId).value, pkt.payload);
              r.0.batteryLevel == UpdateBatteryLevel(r.0.(batteryLevel := projected.batteryLevel), rnd)
    // every property the derivations do not touch is the projected one
    ensures r.1 ==>
              var projected := dec.project(st, Route(pkt.src, pkt.cmdSet, pkt.cmdId).value, pkt.payload);
              r.0.(productType := projected.productType, masterBms := projected.masterBms,
                   slaveBms := projected.slaveBms, batteryLevelMain := projected.batteryLevelMain,
                   batteryLevelSlave := projected.batteryLevelSlave, batteryLevel := projected.batteryLevel)
              == projected
    ensures r.1 ==>
              var kind := Route(pkt.src, pkt.cmdSet, pkt.cmdId).value;
              var projected := dec.project(st, kind, pkt.payload);
              && r.0.sn == projected.sn
              && (kind != KitDetail ==> r.0.productType == projected.productType)
              && (kind == KitDetail ==>
                    r.0.productType == UpdateProductType(dec.kits(pkt.payload), projected.sn, projected.productType))
              && (kind == MasterBmsHeartbeat ==> r.0.masterBms == dec.bms(kind, pkt.payload))
              && (kind == SlaveBmsHeartbeat ==> r.0.slaveBms == dec.bms(kind, pkt.payload))
              && (kind != MasterBmsHeartbeat ==> r.0.masterBms == projected.masterBms)
              && (kind != SlaveBmsHeartbeat ==> r.0.slaveBms == projected.slaveBms)
              && (kind != MasterBmsHeartbeat ==> r.0.batteryLevelMain == projected.batteryLevelMain)
              && (kind != SlaveBmsHeartbeat ==> r.0.batteryLevelSlave == projected.batteryLevelSlave)
              && (kind == MasterBmsHeartbeat ==>
                    r.0.batteryLevelMain == SetBmsSoc(projected.batteryLevelMain, dec.bms(kind, pkt.payload), rnd))
              && (kind == SlaveBmsHeartbeat ==>
                    r.0.batteryLevelSlave == SetBmsSoc(projected.batteryLevelSlave, dec.bms(kind, pkt.payload), rnd))
  {
    match Route(pkt.src, pkt.cmdSet, pkt.cmdId)
    case None => (st, false)
    case Some(kind) =>
      var derived := Derive(dec.project(st, kind, pkt.payload), kind, pkt.payload, dec, rnd);
      (derived.(batteryLevel := UpdateBatteryLevel(derived, rnd)), true)
  }

  /** What `update_from_bytes` leaves alone: the serial, the product type
      and the stored BMS records are plain attributes no record maps onto,
      and a pack level is mapped only from its own pack's record. */
  predicate KeepsDerived(st: State, kind: MessageKind, projected: State) {
    && projected.sn == st.sn
    && projected.productType == st.productType
    && projected.masterBms == st.masterBms
    && projected.slaveBms == st.slaveBms
    && (kind != MasterBmsHeartbeat ==> projected.batteryLevelMain == st.batteryLevelMain)
    && (kind != SlaveBmsHeartbeat ==> projected.batteryLevelSlave == st.batteryLevelSlave)
  }

  ghost predicate ProjectionKeepsDerived(dec: Decoders) {
    forall st: State, kind: MessageKind, payload: seq<Byte> :: KeepsDerived(st, kind, dec.project(st, kind, payload))
  }

  /** With a projection that maps only record fields, `data_parse` keeps the
      serial; only kit details change the product type, and only a pack's
      own BMS heartbeat changes its level or its stored record. */
  lemma DataParseFrame(st: State, pkt: Packet, dec: Decoders, rnd: real -> real)
    requires ProjectionKeepsDerived(dec)
    ensures var (st', _) := DataParse(st, pkt, dec, rnd);
            var kind := Route(pkt.src, pkt.cmdSet, pkt.cmdId);
            && st'.sn == st.sn
            && (st'.productType != st.productType ==> kind == Some(KitDetail))
            && (st'.batteryLevelMain != st.batteryLevelMain || st'.masterBms != st.masterBms ==>
                  kind == Some(MasterBmsHeartbeat))
            && (st'.batteryLevelSlave != st.batteryLevelSlave || st'.slaveBms != st.slaveBms ==>
                  kind == Some(SlaveBmsHeartbeat))
  {
    var kind := Route(pkt.src, pkt.cmdSet, pkt.cmdId);
    if kind.Some? {
      assert KeepsDerived(st, kind.value, dec.project(st, kind.value, pkt.payload));
    }
  }

  /** The 12 V port address follows the kit list: after kit details, it is
      0x07 exactly when the kit carrying this device's serial (or the first
      kit, when none does) has product type 82; any other packet leaves the
      address as it was. */
  lemma Dc12vDstFollowsKits(st: State, pkt: Packet, dec: Decoders, rnd: real -> real)
    requires ProjectionKeepsDerived(dec)
    ensures var st' := DataParse(st, pkt, dec, rnd).0;
            var kits := dec.kits(pkt.payload);
            if Route(pkt.src, pkt.cmdSet, pkt.cmdId) == Some(KitDetail) && kits.Some? && |kits.value| > 0 then
              var m := MatchingKit(kits.value, st.sn);
              var chosen := kits.value[if m.Some? then m.value else 0];
              Dc12vDst(st'.productType) == (if chosen.productType == 82 then 0x07 else 0x05)
            else Dc12vDst(st'.productType) == Dc12vDst(st.productType)
  {
    DataParseFrame(st, pkt, dec, rnd);
    var kind := Route(pkt.src, pkt.cmdSet, pkt.cmdId);
    if kind.Some? {
      assert KeepsDerived(st, kind.value, dec.project(st, kind.value, pkt.payload));
    }
  }
}

=== FILE: enums.dfy ===
/** `IntFieldValue`, the integer enumerations the device adapters use for
    coded fields, modelled over the ordered list of `(name, value)` members a
    subclass declares.

    As in Python's `enum`, a member whose value repeats an earlier member's
    value is an alias of that earlier member: looking a value up yields the
    first member declared with it, and iterating the class skips aliases.
    Member names are distinct, since Python refuses a repeated name. */
module Enums {
  import opened Base

  datatype Member = Member(name: string, value: int)

  /** The members of one enumeration, in declaration order. */
  type Decl = seq<Member>

  const UnknownName: string := "UNKNOWN"

  /** Python refuses a class that declares a name twice. */
  predicate NamesDistinct(decl: Decl) {
    forall j, k :: 0 <= j < k < |decl| ==> decl[j].name != decl[k].name
  }

  function ValueIs(v: int): Member -> bool {
    (m: Member) => m.value == v
  }

  function NameIs(name: string): Member -> bool {
    (m: Member) => m.name == name
  }

  predicate HasValue(decl: Decl, v: int) {
    exists k :: 0 <= k < |decl| && decl[k].value == v
  }

  predicate HasName(decl: Decl, name: string) {
    exists k :: 0 <= k < |decl| && decl[k].name == name
  }

  /** The first position whose member satisfies `want`. */
  function FirstIndex(decl: Decl, want: Member -> bool): (r: Option<nat>)
    ensures r.Some? ==> r.value < |decl| && want(decl[r.value])
    ensures r.Some? ==> forall k :: 0 <= k < r.value ==> !want(decl[k])
    ensures r.None? ==> forall k :: 0 <= k < |decl| ==> !want(decl[k])
  {
    if |decl| == 0 then None
    else if want(decl[0]) then Some(0)
    else
      match FirstIndex(decl[1..], want)
      case Some(j) => Some(j + 1)
      case None => None
  }

  /** `cls(value)`: the first member declared with `v`, or none. */
  function Lookup(decl: Decl, v: int): (r: Option<Member>)
    ensures r.Some? <==> HasValue(decl, v)
    ensures r.Some? ==> r.value in decl && r.value.value == v
  {
    match FirstIndex(decl, ValueIs(v))
    case Some(j) => Some(decl[j])
    case None => None
  }

  /** `getattr(cls, "UNKNOWN", None)`: the member the name `UNKNOWN` stands
      for, which is the first member with its value when it is an alias. */
  function UnknownMember(decl: Decl): (r: Option<Member>)
    ensures r.Some? <==> HasName(decl, UnknownName)
    ensures r.Some? ==> r.value in decl
  {
    match FirstIndex(decl, NameIs(UnknownName))
    case Some(j) => Lookup(decl, decl[j].value)
    case None => None
  }

  /** `from_value`: the member with the value, falling back to `UNKNOWN`.
      `None` stands for the `AttributeError` raised when the value is not
      declared and the enumeration has no `UNKNOWN` member. */
  function FromValue(decl: Decl, v: int): (r: Option<Member>)
    ensures HasValue(decl, v) ==> r.Some? && r.value in decl && r.value.value == v
    ensures !HasValue(decl, v) ==> r == UnknownMember(decl)
    ensures r.None? <==> !HasValue(decl, v) && !HasName(decl, UnknownName)
  {
    if HasValue(decl, v) then Lookup(decl, v) else UnknownMember(decl)
  }

  /** A value nobody declared maps to `UNKNOWN` when the enumeration has it. */
  lemma FromValueFallsBackToUnknown(decl: Decl, v: int, k: nat)
    requires NamesDistinct(decl)
    requires k < |decl| && decl[k].name == UnknownName
    requires !HasValue(decl, v)
    ensures FromValue(decl, v).Some?
    ensures FromValue(decl, v).value.value == decl[k].value
    ensures IsCanonical(decl, k) ==> FromValue(decl, v).value == decl[k]
  {
    var j := FirstIndex(decl, NameIs(UnknownName)).value;
    assert j == k;
    var f := FirstIndex(decl, ValueIs(decl[k].value)).value;
    assert IsCanonical(decl, k) ==> f == k;
  }

  /** A member no earlier member aliases is what `from_value` returns for its
      own value. */
  lemma FromValueOfMember(decl: Decl, k: nat)
    requires k < |decl| && IsCanonical(decl, k)
    ensures FromValue(decl, decl[k].value) == Some(decl[k])
  {
    var f := FirstIndex(decl, ValueIs(decl[k].value));
    assert ValueIs(decl[k].value)(decl[k]);
    assert f.value == k;
  }

  /** The ASCII lower-case form of a character, as `str.lower` on the
      identifier names of members. */
  function LowerChar(c: char): char {
    if 'A' <= c <= 'Z' then (c as int + 32) as char else c
  }

  function Lower(s: string): (r: string)
    ensures |r| == |s|
    ensures forall k :: 0 <= k < |s| ==> r[k] == LowerChar(s[k])
    ensures forall k :: 0 <= k < |r| ==> !('A' <= r[k] <= 'Z')
  {
    seq(|s|, k requires 0 <= k < |s| => LowerChar(s[k]))
  }

  lemma LowerIdempotent(s: string)
    ensures Lower(Lower(s)) == Lower(s)
  {
  }

  /** `state_name`: the lower-cased member name. */
  function StateName(m: Member): (r: string)
    ensures |r| == |m.name|
    // a state name is already in lower case
    ensures Lower(r) == r
  {
    Lower(m.name)
  }

  /** `str_from_value`: the state name of what `from_value` returns. */
  function StrFromValue(decl: Decl, v: int): (r: Option<string>)
    ensures r.Some? <==> FromValue(decl, v).Some?
    ensures HasValue(decl, v) ==> r == Some(Lower(Lookup(decl, v).value.name))
    ensures !HasValue(decl, v) && HasName(decl, UnknownName) ==>
              r == Some(Lower(UnknownMember(decl).value.name))
  {
    match FromValue(decl, v)
    case Some(m) => Some(StateName(m))
    case None => None
  }

  /** A position holds a member rather than an alias when no earlier member
      has its value. */
  predicate IsCanonical(decl: Decl, k: nat)
    requires k < |decl|
  {
    forall j :: 0 <= j < k ==> decl[j].value != decl[k].value
  }

  /** The members `for opt in cls` visits from position `k` on: aliases are
      skipped. */
  function MembersFrom(decl: Decl, k: nat): (ms: seq<Member>)
    requires k <= |decl|
    ensures |ms| <= |decl| - k
    ensures forall j :: k <= j < |decl| && IsCanonical(decl, j) ==> decl[j] in ms
    ensures forall j :: 0 <= j < |ms| ==> ms[j] in decl[k..]
    decreases |decl| - k
  {
    if k == |decl| then []
    else (if IsCanonical(decl, k) then [decl[k]] else []) + MembersFrom(decl, k + 1)
  }

  function Members(decl: Decl): seq<Member> {
    MembersFrom(decl, 0)
  }

  /** Without aliases, iteration visits every declared member in order. */
  lemma {:induction false} MembersWithoutAliases(decl: Decl, k: nat)
    requires k <= |decl|
    requires forall i, j :: 0 <= i < j < |decl| ==> decl[i].value != decl[j].value
    ensures MembersFrom(decl, k) == decl[k..]
    decreases |decl| - k
  {
    if k < |decl| {
      assert IsCanonical(decl, k);
      MembersWithoutAliases(decl, k + 1);
      assert decl[k..] == [decl[k]] + decl[k + 1..];
    }
  }

  /** Every member iteration visits from `k` on is what `cls(value)` returns
      for its value: a declared member, never an alias. */
  lemma {:induction false} MembersFromAreLookups(decl: Decl, k: nat, m: Member)
    requires k <= |decl|
    requires m in MembersFrom(decl, k)
    ensures Lookup(decl, m.value) == Some(m)
    decreases |decl| - k
  {
    var head := if IsCanonical(decl, k) then [decl[k]] else [];
    assert MembersFrom(decl, k) == head + MembersFrom(decl, k + 1);
    if m in head {
      var f := FirstIndex(decl, ValueIs(m.value));
      assert ValueIs(m.value)(decl[k]);
      assert f.value == k;
    } else {
      MembersFromAreLookups(decl, k + 1, m);
    }
  }

  /** `for opt in cls` visits exactly the members `cls(value)` can return. */
  lemma MembersAreLookups(decl: Decl, m: Member)
    ensures m in Members(decl) <==> m in decl && Lookup(decl, m.value) == Some(m)
  {
    if m in Members(decl) {
      MembersFromAreLookups(decl, 0, m);
    }
    if m in decl && Lookup(decl, m.value) == Some(m) {
      var j := FirstIndex(decl, ValueIs(m.value)).value;
      assert IsCanonical(decl, j);
    }
  }

  /** Whether `options` keeps a member. */
  predicate Keep(m: Member, unknown: Option<Member>, includeUnknown: bool, exclude: seq<int>) {
    (unknown != Some(m) || includeUnknown) && m.value !in exclude
  }

  function OptionsOf(ms: seq<Member>, unknown: Option<Member>, includeUnknown: bool, exclude: seq<int>): (r: seq<string>)
    ensures |r| <= |ms|
    ensures forall k :: 0 <= k < |ms| && Keep(ms[k], unknown, includeUnknown, exclude) ==> StateName(ms[k]) in r
    ensures forall s :: s in r ==> exists k :: 0 <= k < |ms| && Keep(ms[k], unknown, includeUnknown, exclude) && StateName(ms[k]) == s
  {
    if |ms| == 0 then []
    else
      (if Keep(ms[0], unknown, includeUnknown, exclude) then [StateName(ms[0])] else [])
      + OptionsOf(ms[1..], unknown, includeUnknown, exclude)
  }

  /** `options` works member by member in declaration order: the names for
      `a + b` are the names for `a` followed by the names for `b`. */
  lemma {:induction false} OptionsOfAppend(a: seq<Member>, b: seq<Member>, unknown: Option<Member>, includeUnknown: bool, exclude: seq<int>)
    ensures OptionsOf(a + b, unknown, includeUnknown, exclude)
         == OptionsOf(a, unknown, includeUnknown, exclude) + OptionsOf(b, unknown, includeUnknown, exclude)
  {
    if |a| == 0 {
      assert a + b == b;
    } else {
      assert (a + b)[0] == a[0];
      assert (a + b)[1..] == a[1..] + b;
      OptionsOfAppend(a[1..], b, unknown, includeUnknown, exclude);
    }
  }

  /** `options`: the state names of the members, in declaration order, minus
      `UNKNOWN` unless asked for, minus every member whose value is in
      `exclude` (an `IntEnum` compares equal to its integer value). */
  function Options(decl: Decl, includeUnknown: bool, exclude: seq<int>): (r: seq<string>)
    ensures |r| <= |decl|
    // every option is the state name of a declared member whose value is
    // not excluded
    ensures forall s :: s in r ==> exists m :: m in decl && StateName(m) == s && m.value !in exclude
    // with the default arguments, every declared member that is not an
    // alias is listed by name
    ensures includeUnknown && exclude == [] ==>
              forall k :: 0 <= k < |decl| && IsCanonical(decl, k) ==> StateName(decl[k]) in r
  {
    assert decl[0..] == decl;
    OptionsOf(Members(decl), UnknownMember(decl), includeUnknown, exclude)
  }

  /** With the default arguments (`include_unknown=True`, `exclude=[]`)
      `options` lists every member's state name, in declaration order. */
  lemma {:induction false} OptionsOfDefaults(ms: seq<Member>, unknown: Option<Member>)
    ensures OptionsOf(ms, unknown, true, []) == seq(|ms|, k requires 0 <= k < |ms| => StateName(ms[k]))
  {
    if |ms| > 0 {
      OptionsOfDefaults(ms[1..], unknown);
    }
  }

  lemma OptionsDefaults(decl: Decl)
    ensures |Options(decl, true, [])| == |Members(decl)|
    ensures forall k :: 0 <= k < |Members(decl)| ==> Options(decl, true, [])[k] == StateName(Members(decl)[k])
  {
    OptionsOfDefaults(Members(decl), UnknownMember(decl));
  }

  predicate Distinct<T(==)>(s: seq<T>) {
    forall i, j :: 0 <= i < j < |s| ==> s[i] != s[j]
  }

  /** When the members' state names differ, `options` repeats none of them,
      and a member's name is listed exactly when the member is kept. */
  lemma {:induction false} OptionsOfExact(ms: seq<Member>, unknown: Option<Member>, includeUnknown: bool, exclude: seq<int>)
    requires forall i, j :: 0 <= i < j < |ms| ==> StateName(ms[i]) != StateName(ms[j])
    ensures Distinct(OptionsOf(ms, unknown, includeUnknown, exclude))
    ensures forall k :: 0 <= k < |ms| ==>
              (StateName(ms[k]) in OptionsOf(ms, unknown, includeUnknown, exclude) <==> Keep(ms[k], unknown, includeUnknown, exclude))
  {
    if |ms| > 0 {
      var tail := OptionsOf(ms[1..], unknown, includeUnknown, exclude);
      OptionsOfExact(ms[1..], unknown, includeUnknown, exclude);
      assert StateName(ms[0]) !in tail;
      forall k | 0 < k < |ms|
        ensures StateName(ms[k]) in OptionsOf(ms, unknown, includeUnknown, exclude) <==> Keep(ms[k], unknown, includeUnknown, exclude)
      {
        assert ms[k] == ms[1..][k - 1];
      }
    }
  }

  lemma OptionsExact(decl: Decl, includeUnknown: bool, exclude: seq<int>)
    requires forall i, j :: 0 <= i < j < |Members(decl)| ==> StateName(Members(decl)[i]) != StateName(Members(decl)[j])
    ensures Distinct(Options(decl, includeUnknown, exclude))
    ensures |Options(decl, includeUnknown, exclude)| <= |Members(decl)| <= |decl|
    ensures forall m :: m in Members(decl) ==>
              (StateName(m) in Options(decl, includeUnknown, exclude) <==>
               (UnknownMember(decl) != Some(m) || includeUnknown) && m.value !in exclude)
  {
    OptionsOfExact(Members(decl), UnknownMember(decl), includeUnknown, exclude);
  }
}

=== FILE: tagged_fields.dfy ===
/** Protocol-Buffers-style tagged fields (the "Message Structure" section of the
    Protocol Buffers encoding guide) as used by the Delta 2 adapter's PD100
    configuration commands: a key `(field << 3) | wire_type` as a varint,
    followed by the field's value. Only varint-typed fields (wire type 0) are
    written, and only they are kept when a payload is scanned. */
module TaggedFields {
  import opened Base
  import opened Varint

  const WireVarint: nat := 0
  const WireFixed64: nat := 1
  const WireLengthDelimited: nat := 2
  const WireFixed32: nat := 5

  /** Field number of the PD100 "read action" command entries. */
  const ReadActionField: nat := 1
  const ReadActionDisplay: nat := 41
  const ReadActionBackup: nat := 144

  /** `(field << 3) | wire`, for a wire type that fits in three bits. */
  function Key(field: nat, wire: nat): (k: nat)
    requires wire < 8
    ensures k / 8 == field && k % 8 == wire
  {
    field * 8 + wire
  }

  /** `_encode_pd100_config_field`: one varint-typed entry. */
  function EncodeConfigField(field: nat, value: nat): (r: seq<Byte>)
    ensures |r| >= 2
    // the low three bits of the first byte are the key's wire type
    ensures r[0] % 8 == WireVarint
    // a field number below 16 makes a one-byte key
    ensures field < 16 ==> r[0] == field * 8 && r[1..] == Encode(value)
  {
    KeyFirstByte(field);
    Encode(Key(field, WireVarint)) + Encode(value)
  }

  /** The first byte of a varint-typed key keeps the key's low three bits. */
  lemma KeyFirstByte(field: nat)
    ensures Encode(Key(field, WireVarint))[0] % 8 == WireVarint
  {
    var key := Key(field, WireVarint);
    var q, g := field / 16, field % 16;
    assert key == 0x80 * q + 8 * g;
    DivModUnique(key, 0x80, q, 8 * g);
    if key >= 0x80 {
      assert Encode(key)[0] == 8 * g + 0x80;
      DivModUnique(8 * g + 0x80, 8, g + 16, 0);
    } else {
      assert Encode(key)[0] == 8 * g;
      DivModUnique(8 * g, 8, g, 0);
    }
  }

  /** `_encode_pd100_config_read_action`: a varint entry for field 1 (the
      source spells out the key `(1 << 3) | 0`). */
  function EncodeReadAction(actionId: nat): (r: seq<Byte>)
    // every read-action entry opens with the one-byte key 0x08
    ensures |r| >= 2 && r[0] == 0x08 && r[1..] == Encode(actionId)
  {
    EncodeConfigField(ReadActionField, actionId)
  }

  /** `_encode_pd100_config_read_actions`: the entries of all ids, in order. */
  function EncodeReadActions(actionIds: seq<nat>): (r: seq<Byte>)
    ensures |actionIds| == 0 <==> |r| == 0
  {
    if |actionIds| == 0 then []
    else EncodeReadAction(actionIds[0]) + EncodeReadActions(actionIds[1..])
  }

  /** Appending an id appends its entry. */
  lemma {:induction false} EncodeReadActionsAppend(actionIds: seq<nat>, actionId: nat)
    ensures EncodeReadActions(actionIds + [actionId]) == EncodeReadActions(actionIds) + EncodeReadAction(actionId)
    decreases |actionIds|
  {
    if |actionIds| == 0 {
      assert actionIds + [actionId] == [actionId];
    } else {
      assert (actionIds + [actionId])[1..] == actionIds[1..] + [actionId];
      EncodeReadActionsAppend(actionIds[1..], actionId);
    }
  }

  /** `_encode_pd100_config_read_actions`, loop for loop. */
  method EncodeReadActionsLoop(actionIds: seq<nat>) returns (payload: seq<Byte>)
    ensures payload == EncodeReadActions(actionIds)
  {
    payload := [];
    for k := 0 to |actionIds|
      invariant payload == EncodeReadActions(actionIds[..k])
    {
      assert actionIds[..k + 1] == actionIds[..k] + [actionIds[k]];
      EncodeReadActionsAppend(actionIds[..k], actionIds[k]);
      payload := payload + EncodeReadAction(actionIds[k]);
    }
    assert actionIds[..|actionIds|] == actionIds;
  }

  /** What one iteration of the scan does at cursor `i`. */
  datatype Step =
    | Stop                                              // unknown wire type
    | Advance(next: nat, entry: Option<(nat, nat)>)     // new cursor, varint entry if any

  /** One iteration of `_parse_pd100_varint_fields`: read the key, then
      dispatch on its wire type. A fixed-width or length-delimited skip may
      move the cursor past the end of the buffer, which ends the scan. */
  function ScanStep(p: seq<Byte>, i: nat): (s: Step)
    requires i < |p|
    // each iteration moves the cursor forward, so the scan terminates
    ensures s.Advance? ==> s.next > i
  {
    var (key, j) := Decode(p, i);
    var wire := key % 8;
    if wire == WireVarint then
      var (value, k) := Decode(p, j);
      Advance(k, Some((key / 8, value)))
    else if wire == WireFixed64 then Advance(j + 8, None)
    else if wire == WireLengthDelimited then
      var (size, k) := Decode(p, j);
      Advance(k + size, None)
    else if wire == WireFixed32 then Advance(j + 4, None)
    else Stop
  }

  /** The step at a varint-typed key: the entry under the key's field number,
      and the cursor after the value. */
  lemma ScanVarintEntry(p: seq<Byte>, i: nat, field: nat, value: nat, j: nat, k: nat)
    requires i < |p| && Decode(p, i) == (Key(field, WireVarint), j) && Decode(p, j) == (value, k)
    ensures ScanStep(p, i) == Advance(k, Some((field, value)))
  {
  }

  /** The step at a key of a skipped wire type: the cursor after the
      skipped bytes, and no entry. */
  lemma ScanSkippedKey(p: seq<Byte>, i: nat, key: nat, j: nat)
    requires i < |p| && Decode(p, i) == (key, j) && key % 8 in {WireFixed64, WireLengthDelimited, WireFixed32}
    ensures key % 8 == WireFixed64 ==> ScanStep(p, i) == Advance(j + 8, None)
    ensures key % 8 == WireLengthDelimited ==> ScanStep(p, i) == Advance(Decode(p, j).1 + Decode(p, j).0, None)
    ensures key % 8 == WireFixed32 ==> ScanStep(p, i) == Advance(j + 4, None)
  {
  }

  /** The scan from cursor `i` onwards, with the entries collected so far in
      `acc`; a later entry for the same field overwrites an earlier one. */
  function ParseFrom(p: seq<Byte>, i: nat, acc: map<nat, nat>): (r: map<nat, nat>)
    // no field collected earlier is ever dropped
    ensures acc.Keys <= r.Keys
    // nothing past the end of the buffer is read
    ensures i >= |p| ==> r == acc
    decreases |p| - i
  {
    if i >= |p| then acc
    else
      match ScanStep(p, i)
      case Stop => acc
      case Advance(next, entry) =>
        ParseFrom(p, next, if entry.Some? then acc[entry.value.0 := entry.value.1] else acc)
  }

  /** `_parse_pd100_varint_fields`: the varint-typed fields of a payload. */
  function Parse(p: seq<Byte>): (r: map<nat, nat>)
    ensures |p| == 0 ==> r == map[]
  {
    ParseFrom(p, 0, map[])
  }

  /** `_parse_pd100_varint_fields`, loop for loop. */
  method ParseLoop(payload: seq<Byte>) returns (values: map<nat, nat>)
    ensures values == Parse(payload)
  {
    var idx: nat := 0;
    values := map[];
    var length := |payload|;
    while idx < length
      invariant ParseFrom(payload, idx, values) == Parse(payload)
      decreases length - idx
    {
      ghost var step := ScanStep(payload, idx);
      var key;
      key, idx := DecodeLoop(payload, idx);
      var fieldNumber := key / 8;
      var wireType := key % 8;
      if wireType == 0 {
        var value;
        value, idx := DecodeLoop(payload, idx);
        assert step == Advance(idx, Some((fieldNumber, value)));
        values := values[fieldNumber := value];
      } else if wireType == 1 {
        idx := idx + 8;
        assert step == Advance(idx, None);
      } else if wireType == 2 {
        var size;
        size, idx := DecodeLoop(payload, idx);
        idx := idx + size;
        assert step == Advance(idx, None);
      } else if wireType == 5 {
        idx := idx + 4;
        assert step == Advance(idx, None);
      } else {
        assert step == Stop;
        break;
      }
    }
  }

  /** A varint entry at the cursor is one scan step: it is recorded and the
      scan resumes right after it. */
  lemma ScanConfigFieldAt(p: seq<Byte>, i: nat, field: nat, value: nat)
    requires i + |EncodeConfigField(field, value)| <= |p|
    requires p[i..i + |EncodeConfigField(field, value)|] == EncodeConfigField(field, value)
    ensures i < |p|
    ensures ScanStep(p, i) == Advance(i + |EncodeConfigField(field, value)|, Some((field, value)))
  {
    var key := Key(field, WireVarint);
    DecodePairAt(key, value, p, i);
    ScanVarintEntry(p, i, field, value, i + |Encode(key)|, i + |Encode(key)| + |Encode(value)|);
  }

  /** The scan with the entries collected so far, across one step. */
  lemma ParseStep(p: seq<Byte>, i: nat, acc: map<nat, nat>, next: nat, entry: Option<(nat, nat)>)
    requires i < |p| && ScanStep(p, i) == Advance(next, entry)
    ensures ParseFrom(p, i, acc) == ParseFrom(p, next, if entry.Some? then acc[entry.value.0 := entry.value.1] else acc)
  {
  }

  /** So the entries collected so far gain the entry, and the scan goes on
      after it. */
  lemma ParseConfigFieldAt(p: seq<Byte>, i: nat, acc: map<nat, nat>, field: nat, value: nat)
    requires i + |EncodeConfigField(field, value)| <= |p|
    requires p[i..i + |EncodeConfigField(field, value)|] == EncodeConfigField(field, value)
    ensures ParseFrom(p, i, acc) == ParseFrom(p, i + |EncodeConfigField(field, value)|, acc[field := value])
  {
    ScanConfigFieldAt(p, i, field, value);
    ParseStep(p, i, acc, i + |EncodeConfigField(field, value)|, Some((field, value)));
  }

  /** Round trip of one entry: `{field: value}`. */
  lemma ParseConfigField(field: nat, value: nat)
    ensures Parse(EncodeConfigField(field, value)) == map[field := value]
  {
    var p := EncodeConfigField(field, value);
    assert p[0..|p|] == p;
    ParseConfigFieldAt(p, 0, map[], field, value);
  }

  /** `p` holds, from `i` to its end, the entries of `ids` one after the
      other. */
  predicate ReadActionsAt(p: seq<Byte>, i: nat, ids: seq<nat>)
    decreases |ids|
  {
    if |ids| == 0 then i == |p|
    else
      var e := EncodeReadAction(ids[0]);
      i + |e| <= |p| && p[i..i + |e|] == e && ReadActionsAt(p, i + |e|, ids[1..])
  }

  /** The entries after a run of read actions: the last id under field 1. */
  function LastEntry(acc: map<nat, nat>, ids: seq<nat>): map<nat, nat> {
    if |ids| == 0 then acc else acc[ReadActionField := Last(ids)]
  }

  lemma LastEntryStep(acc: map<nat, nat>, ids: seq<nat>)
    requires |ids| > 0
    ensures LastEntry(acc[ReadActionField := ids[0]], ids[1..]) == LastEntry(acc, ids)
  {
    if |ids| > 1 {
      assert Last(ids[1..]) == Last(ids);
    }
  }

  /** How the scan treats a run of read actions at `i`: each entry is one
      step that records it, and the run ends the payload. */
  predicate ScansAsRun(p: seq<Byte>, i: nat, ids: seq<nat>)
    decreases |ids|
  {
    if |ids| == 0 then i >= |p|
    else
      var next := i + |EncodeReadAction(ids[0])|;
      i < |p| && ScanStep(p, i) == Advance(next, Some((ReadActionField, ids[0])))
      && ScansAsRun(p, next, ids[1..])
  }

  /** Read-action entries one after the other are scanned one step each. */
  lemma {:induction false} ReadActionsScanAsRun(p: seq<Byte>, i: nat, ids: seq<nat>)
    requires ReadActionsAt(p, i, ids)
    ensures ScansAsRun(p, i, ids)
    decreases |ids|
  {
    if |ids| > 0 {
      ScanConfigFieldAt(p, i, ReadActionField, ids[0]);
      ReadActionsScanAsRun(p, i + |EncodeReadAction(ids[0])|, ids[1..]);
    }
  }

  /** A run of read-action entries leaves only the last id under field 1. */
  lemma {:induction false} ParseRun(p: seq<Byte>, i: nat, acc: map<nat, nat>, ids: seq<nat>)
    requires ScansAsRun(p, i, ids)
    ensures ParseFrom(p, i, acc) == LastEntry(acc, ids)
    decreases |ids|
  {
    if |ids| > 0 {
      var next := i + |EncodeReadAction(ids[0])|;
      ParseStep(p, i, acc, next, Some((ReadActionField, ids[0])));
      ParseRun(p, next, acc[ReadActionField := ids[0]], ids[1..]);
      LastEntryStep(acc, ids);
    }
  }

  /** The encoding of `ids`, placed after any prefix, is a run of their
      entries. */
  lemma {:induction false} EncodedReadActionsAt(pre: seq<Byte>, ids: seq<nat>)
    ensures ReadActionsAt(pre + EncodeReadActions(ids), |pre|, ids)
    decreases |ids|
  {
    if |ids| > 0 {
      var e := EncodeReadAction(ids[0]);
      var tail := EncodeReadActions(ids[1..]);
      var p := pre + EncodeReadActions(ids);
      assert p == (pre + e) + tail;
      assert p[|pre|..|pre| + |e|] == e;
      EncodedReadActionsAt(pre + e, ids[1..]);
    }
  }

  /** `_parse_pd100_varint_fields(_encode_pd100_config_read_actions(ids))`
      is `{1: ids[-1]}`, or `{}` for no ids. */
  lemma ParseReadActions(ids: seq<nat>)
    ensures Parse(EncodeReadActions(ids)) ==
              if |ids| == 0 then map[] else map[ReadActionField := Last(ids)]
  {
    var p := EncodeReadActions(ids);
    assert p == [] + p;
    EncodedReadActionsAt([], ids);
    ReadActionsScanAsRun(p, 0, ids);
    ParseRun(p, 0, map[], ids);
  }

  /** An 8-byte fixed field is skipped without recording anything; the
      scan resumes 8 bytes after its key, even past the end of the buffer. */
  lemma SkipFixed64(p: seq<Byte>, i: nat, field: nat, acc: map<nat, nat>)
    requires i + |Encode(Key(field, WireFixed64))| <= |p|
    requires p[i..i + |Encode(Key(field, WireFixed64))|] == Encode(Key(field, WireFixed64))
    ensures ParseFrom(p, i, acc) == ParseFrom(p, i + |Encode(Key(field, WireFixed64))| + 8, acc)
  {
    var key := Key(field, WireFixed64);
    DecodeEncodedAt(key, p, i);
    ScanSkippedKey(p, i, key, i + |Encode(key)|);
    ParseStep(p, i, acc, i + |Encode(key)| + 8, None);
  }

  /** A 4-byte fixed field is skipped without recording anything. */
  lemma SkipFixed32(p: seq<Byte>, i: nat, field: nat, acc: map<nat, nat>)
    requires i + |Encode(Key(field, WireFixed32))| <= |p|
    requires p[i..i + |Encode(Key(field, WireFixed32))|] == Encode(Key(field, WireFixed32))
    ensures ParseFrom(p, i, acc) == ParseFrom(p, i + |Encode(Key(field, WireFixed32))| + 4, acc)
  {
    var key := Key(field, WireFixed32);
    DecodeEncodedAt(key, p, i);
    ScanSkippedKey(p, i, key, i + |Encode(key)|);
    ParseStep(p, i, acc, i + |Encode(key)| + 4, None);
  }

  /** A length-delimited field is skipped by its decoded length, without
      recording anything. */
  lemma SkipLengthDelimited(p: seq<Byte>, i: nat, field: nat, size: nat, acc: map<nat, nat>)
    requires i + |Encode(Key(field, WireLengthDelimited))| + |Encode(size)| <= |p|
    requires p[i..i + |Encode(Key(field, WireLengthDelimited))| + |Encode(size)|]
          == Encode(Key(field, WireLengthDelimited)) + Encode(size)
    ensures ParseFrom(p, i, acc)
         == ParseFrom(p, i + |Encode(Key(field, WireLengthDelimited))| + |Encode(size)| + size, acc)
  {
    var key := Key(field, WireLengthDelimited);
    DecodePairAt(key, size, p, i);
    ScanSkippedKey(p, i, key, i + |Encode(key)|);
    ParseStep(p, i, acc, i + |Encode(key)| + |Encode(size)| + size, None);
  }

  /** A key with a wire type other than 0, 1, 2 or 5 ends the scan: whatever
      follows is ignored. */
  lemma StopOnUnknownWireType(p: seq<Byte>, i: nat, field: nat, wire: nat, acc: map<nat, nat>)
    requires wire < 8 && wire !in {WireVarint, WireFixed64, WireLengthDelimited, WireFixed32}
    requires i + |Encode(Key(field, wire))| <= |p|
    requires p[i..i + |Encode(Key(field, wire))|] == Encode(Key(field, wire))
    ensures ParseFrom(p, i, acc) == acc
  {
    DecodeEncodedAt(Key(field, wire), p, i);
  }

  /** So an unknown wire type after a configuration field keeps that field
      and drops everything from the unknown key on. */
  lemma StopAfterConfigField(field: nat, value: nat, other: nat, wire: nat, rest: seq<Byte>)
    requires wire < 8 && wire !in {WireVarint, WireFixed64, WireLengthDelimited, WireFixed32}
    ensures Parse(EncodeConfigField(field, value) + Encode(Key(other, wire)) + rest) == map[field := value]
  {
    var e := EncodeConfigField(field, value);
    var k := Encode(Key(other, wire));
    var p := e + k + rest;
    assert p[0..|e|] == e;
    assert p[|e|..|e| + |k|] == k;
    ScanConfigFieldAt(p, 0, field, value);
    DecodeEncodedAt(Key(other, wire), p, |e|);
    var none: map<nat, nat> := map[];
    StepThenStop(p, 0, none, |e|, field, value);
    assert none[field := value] == map[field := value];
  }

  /** A scan that records one entry and then stops yields the entries
      collected before plus that one. */
  lemma StepThenStop(p: seq<Byte>, i: nat, acc: map<nat, nat>, next: nat, field: nat, value: nat)
    requires i < |p| && ScanStep(p, i) == Advance(next, Some((field, value)))
    requires next < |p| && ScanStep(p, next) == Stop
    ensures ParseFrom(p, i, acc) == acc[field := value]
  {
  }

  lemma Examples()
    ensures EncodeReadActions([ReadActionDisplay, ReadActionBackup]) == [0x08, 0x29, 0x08, 0x90, 0x01]
    ensures Parse(EncodeConfigField(1, 41)) == map[1 := 41]
  {
    ParseConfigField(1, 41);
  }
}

=== FILE: varint.dfy ===
/** Unsigned base-128 varints (unsigned LEB128, section 7.6 of the DWARF 4
    standard) as written by `Device._encode_varint` and read by
    `Device._decode_varint` of the Delta 2 adapter.

    On unbounded naturals `v & 0x7F` is `v % 0x80`, `v >> 7` is `v / 0x80`,
    and a byte has its continuation bit (`byte & 0x80`) set exactly when it
    is at least 0x80. */
module Varint {
  import opened Base

  predicate IsContinued(b: Byte) {
    b >= 0x80
  }

  /** The 7 payload bits of a byte, `b & 0x7F`. */
  function Low7(b: Byte): (r: nat)
    ensures r < 0x80
    ensures r == b || (IsContinued(b) && r + 0x80 == b)
  {
    b % 0x80
  }

  /** Least-significant 7-bit group first; every byte but the last carries the
      continuation bit. */
  function Encode(v: nat): (r: seq<Byte>)
    ensures |r| >= 1
    ensures forall k :: 0 <= k < |r| - 1 ==> IsContinued(r[k])
    ensures v < Pow128(|r|)
    ensures |r| == 1 <==> v < 0x80
  {
    if v < 0x80 then [v] else [v % 0x80 + 0x80] + Encode(v / 0x80)
  }

  /** The last byte of an encoding is the only one without the continuation
      bit, so a decoder knows where the varint ends. */
  lemma {:induction false} EncodeEndsVarint(v: nat)
    ensures !IsContinued(Encode(v)[|Encode(v)| - 1])
    decreases v
  {
    if v >= 0x80 {
      EncodeEndsVarint(v / 0x80);
    }
  }

  /** Reads one varint starting at `i`. Reading stops after the first byte
      whose continuation bit is clear, or at the end of the buffer; a
      truncated varint yields the groups read so far and never an error.
      The result is `(value, index after the last byte read)`. */
  function Decode(p: seq<Byte>, i: nat): (r: (nat, nat))
    ensures i <= r.1
    ensures i >= |p| ==> r == (0, i)
    ensures i < |p| ==> i < r.1 <= |p|
    decreases |p| - i
  {
    if i >= |p| then (0, i)
    else if !IsContinued(p[i]) then (p[i], i + 1)
    else
      var rest := Decode(p, i + 1);
      (Low7(p[i]) + 0x80 * rest.0, rest.1)
  }

  /** Where `Decode` stops: every byte it reads except the last carries the
      continuation bit, and the last one clears it unless the buffer ran out.
      So a varint cut short by the end of the buffer is read up to `|p|`.
      The value has at most 7 bits per byte read. */
  lemma {:induction false} DecodeStopsAtTerminator(p: seq<Byte>, i: nat)
    ensures forall k :: i <= k < Decode(p, i).1 - 1 ==> IsContinued(p[k])
    ensures i < Decode(p, i).1 < |p| ==> !IsContinued(p[Decode(p, i).1 - 1])
    ensures Decode(p, i).0 < Pow128(Decode(p, i).1 - i)
    decreases |p| - i
  {
    if i < |p| && IsContinued(p[i]) {
      DecodeStopsAtTerminator(p, i + 1);
      var rest := Decode(p, i + 1);
      AccumulateGroup(0, Low7(p[i]), 1, 0);
      assert Pow128(rest.1 - i) == 0x80 * Pow128(rest.1 - (i + 1));
    }
  }

  /** `Device._encode_varint`, loop for loop. */
  method EncodeLoop(v: nat) returns (r: seq<Byte>)
    ensures r == Encode(v)
  {
    r := [];
    var value := v;
    while true
      invariant r + Encode(value) == Encode(v)
      decreases value
    {
      var toWrite := value % 0x80;
      var rest := value / 0x80;
      if rest != 0 {
        EncodeUnfold(value);
        assert r + Encode(value) == (r + [toWrite + 0x80]) + Encode(rest);
        r := r + [toWrite + 0x80];
        value := rest;
      } else {
        EncodeUnfold(value);
        r := r + [toWrite];
        break;
      }
    }
  }

  lemma EncodeUnfold(v: nat)
    ensures v < 0x80 ==> Encode(v) == [v % 0x80]
    ensures v >= 0x80 ==> Encode(v) == [v % 0x80 + 0x80] + Encode(v / 0x80) && v / 0x80 < v
    ensures v / 0x80 == 0 <==> v < 0x80
  {
  }

  /** `Device._decode_varint`, loop for loop. The accumulator stays below
      2^shift, so OR-ing in the next group shifted by `shift` is the same as
      adding it. */
  method DecodeLoop(p: seq<Byte>, i: nat) returns (value: nat, next: nat)
    ensures (value, next) == Decode(p, i)
  {
    var groups: nat := 0;  // shift == 7 * groups
    value := 0;
    next := i;
    while next < |p|
      invariant i <= next
      invariant value < Pow128(groups)
      invariant value + Pow128(groups) * Decode(p, next).0 == Decode(p, i).0
      invariant Decode(p, next).1 == Decode(p, i).1
      decreases |p| - next
    {
      var byte := p[next];
      DecodeGroup(p, next, value, Pow128(groups), Decode(p, i).0);
      next := next + 1;
      value := value + Pow128(groups) * Low7(byte);
      if !IsContinued(byte) {
        break;
      }
      groups := groups + 1;
    }
  }

  /** One iteration of `DecodeLoop`: the group at `next` is added at weight
      `w`; after the last group the value is complete, otherwise the rest of
      the varint is still to be added at the next weight. */
  lemma DecodeGroup(p: seq<Byte>, next: nat, value: nat, w: nat, total: nat)
    requires next < |p| && value < w
    requires value + w * Decode(p, next).0 == total
    ensures 0 <= w * Low7(p[next])
    ensures !IsContinued(p[next]) ==> value + w * Low7(p[next]) == total && Decode(p, next).1 == next + 1
    ensures IsContinued(p[next]) ==>
              value + w * Low7(p[next]) < 0x80 * w
              && (value + w * Low7(p[next])) + (0x80 * w) * Decode(p, next + 1).0 == total
              && Decode(p, next + 1).1 == Decode(p, next).1
  {
    AccumulateGroup(value, Low7(p[next]), w, if IsContinued(p[next]) then Decode(p, next + 1).0 else 0);
  }

  /** One step of the accumulation: adding a group at weight `w` keeps the
      accumulator below the next weight and preserves the total. */
  lemma AccumulateGroup(acc: nat, g: nat, w: nat, tail: nat)
    requires acc < w && g < 0x80
    ensures 0 <= w * g
    ensures acc + w * g < 0x80 * w
    ensures acc + w * (g + 0x80 * tail) == (acc + w * g) + (0x80 * w) * tail
  {
    assert w * g <= w * 0x7F;
  }

  /** Decoding an encoding found at any offset of a buffer yields the value and
      the index just past it, whatever follows. */
  lemma {:induction false} DecodeEncodedAt(v: nat, p: seq<Byte>, i: nat)
    requires i + |Encode(v)| <= |p|
    requires p[i..i + |Encode(v)|] == Encode(v)
    ensures Decode(p, i) == (v, i + |Encode(v)|)
    decreases v
  {
    var e := Encode(v);
    assert p[i] == e[0];
    if v >= 0x80 {
      var e' := Encode(v / 0x80);
      assert e == [v % 0x80 + 0x80] + e';
      assert p[i + 1..i + 1 + |e'|] == e' by {
        assert p[i + 1..i + 1 + |e'|] == p[i..i + |e|][1..];
      }
      DecodeEncodedAt(v / 0x80, p, i + 1);
    }
  }

  /** Two varints one after the other decode one after the other. */
  lemma DecodePairAt(a: nat, b: nat, p: seq<Byte>, i: nat)
    requires i + |Encode(a)| + |Encode(b)| <= |p|
    requires p[i..i + |Encode(a)| + |Encode(b)|] == Encode(a) + Encode(b)
    ensures Decode(p, i) == (a, i + |Encode(a)|)
    ensures Decode(p, i + |Encode(a)|) == (b, i + |Encode(a)| + |Encode(b)|)
  {
    SliceOfConcat(p, i, Encode(a), Encode(b));
    DecodeEncodedAt(a, p, i);
    DecodeEncodedAt(b, p, i + |Encode(a)|);
  }

  /** The two halves of a slice that is a concatenation. */
  lemma SliceOfConcat(p: seq<Byte>, i: nat, a: seq<Byte>, b: seq<Byte>)
    requires i + |a| + |b| <= |p| && p[i..i + |a| + |b|] == a + b
    ensures p[i..i + |a|] == a && p[i + |a|..i + |a| + |b|] == b
  {
    assert p[i..i + |a|] == p[i..i + |a| + |b|][..|a|];
    assert p[i + |a|..i + |a| + |b|] == p[i..i + |a| + |b|][|a|..];
  }

  /** Round trip: `_decode_varint(_encode_varint(v) + rest, 0)` is `(v, len(_encode_varint(v)))`. */
  lemma RoundTrip(v: nat, rest: seq<Byte>)
    ensures Decode(Encode(v) + rest, 0) == (v, |Encode(v)|)
  {
    var p := Encode(v) + rest;
    assert p[0..|Encode(v)|] == Encode(v);
    DecodeEncodedAt(v, p, 0);
  }

  /** A buffer cut inside an encoding decodes to the groups that survived:
      the low `7 * k` bits of the value, with the index at the end of the
      buffer. */
  lemma {:induction false} DecodeTruncated(v: nat, p: seq<Byte>, i: nat, k: nat)
    requires k <= |Encode(v)|
    requires i + k == |p|
    requires p[i..] == Encode(v)[..k]
    ensures Decode(p, i) == (v % Pow128(k), |p|)
    decreases k
  {
    if k > 0 {
      var e := Encode(v);
      assert p[i] == e[0];
      if v >= 0x80 {
        var e' := Encode(v / 0x80);
        assert e == [v % 0x80 + 0x80] + e';
        assert p[i + 1..] == e'[..k - 1];
        DecodeTruncated(v / 0x80, p, i + 1, k - 1);
        assert Decode(p, i) == (Low7(p[i]) + 0x80 * Decode(p, i + 1).0, |p|);
        assert Low7(p[i]) == v % 0x80;
        ModOfProduct(v, Pow128(k - 1));
      } else {
        assert v % Pow128(1) == v;
      }
    }
  }

  /** Splitting the low bits of `a` into its lowest 7-bit group and the rest. */
  lemma ModOfProduct(a: nat, m: nat)
    requires m >= 1
    ensures a % 0x80 + 0x80 * ((a / 0x80) % m) == a % (0x80 * m)
  {
    var q := a / 0x80;
    var r0 := a % 0x80;
    var q2 := q / m;
    var r1 := q % m;
    assert a == 0x80 * q + r0;
    assert q == m * q2 + r1;
    assert a == (0x80 * m) * q2 + (0x80 * r1 + r0);
    assert 0 <= 0x80 * r1 + r0 < 0x80 * m;
    DivModUnique(a, 0x80 * m, q2, 0x80 * r1 + r0);
  }

  lemma DivModUnique(a: nat, d: nat, q: nat, r: nat)
    requires d > 0 && a == d * q + r && r < d
    ensures a % d == r
  {
    var q', r' := a / d, a % d;
    assert d * q' + r' == d * q + r;
    assert q' > q ==> d * q' >= d * (q + 1);
    assert q' < q ==> d * q >= d * (q' + 1);
    assert q' == q;
  }

  lemma Examples()
    ensures Encode(0) == [0x00]
    ensures Encode(300) == [0xAC, 0x02]
    ensures Decode([0xAC, 0x02], 0) == (300, 2)
  {
    RoundTrip(300, []);
    assert [0xAC, 0x02] == Encode(300) + [];
  }
}

=== FILE: wave2.dfy ===
/** The Wave 2 adapter: its enumerations, the drain-mode logic (how the
    device's `wte_fth_en` code is read, and which code each command writes),
    its routing, and the configuration packets it sends. */
module Wave2 {
  import opened Base
  import Enums

  // ---------------------------------------------------------------------
  // Enumerations

  datatype MainMode = Cold | Warm | Fan {
    function Value(): Byte {
      match this
      case Cold => 0
      case Warm => 1
      case Fan => 2
    }
  }

  datatype DrainMode = External | DrainFree {
    function Value(): Byte {
      match this
      case External => 0
      case DrainFree => 1
    }
  }

  /** The declarations of the `IntFieldValue` subclasses; none of them
      declares `UNKNOWN`. */
  const FanGearDecl: Enums.Decl := [Enums.Member("LOW", 0), Enums.Member("MEDIUM", 1), Enums.Member("HIGH", 2)]
  const MainModeDecl: Enums.Decl := [Enums.Member("COLD", 0), Enums.Member("WARM", 1), Enums.Member("FAN", 2)]
  const SubModeDecl: Enums.Decl :=
    [Enums.Member("MAX", 0), Enums.Member("NIGHT", 1), Enums.Member("ECO", 2), Enums.Member("NORMAL", 3)]
  const PowerModeDecl: Enums.Decl :=
    [Enums.Member("INIT", 0), Enums.Member("ON", 1), Enums.Member("STANDBY", 2), Enums.Member("OFF", 3)]
  const WaterLevelDecl: Enums.Decl := [Enums.Member("LOW", 0), Enums.Member("MEDIUM", 1), Enums.Member("HIGH", 2)]
  const DrainModeDecl: Enums.Decl := [Enums.Member("EXTERNAL", 0), Enums.Member("DRAIN_FREE", 1)]

  /** `MainMode.from_value` decodes the three declared codes to the modes the
      model uses, and fails on every other code: with no `UNKNOWN` member to
      fall back to, the lookup raises. */
  lemma MainModeFromValue(v: int)
    ensures Enums.FromValue(MainModeDecl, v).Some? <==> 0 <= v <= 2
    // the declared codes are exactly the codes of the model's modes
    ensures 0 <= v <= 2 <==> exists m: MainMode :: m.Value() == v
    ensures 0 <= v <= 2 ==> Enums.FromValue(MainModeDecl, v) == Some(MainModeDecl[v])
  {
    assert !Enums.HasName(MainModeDecl, Enums.UnknownName);
    if 0 <= v <= 2 {
      assert [Cold, Warm, Fan][v].Value() == v;
      assert MainModeDecl[v].value == v;
      Enums.FromValueOfMember(MainModeDecl, v);
    }
  }

  /** The same for `DrainMode`. */
  lemma DrainModeFromValue(v: int)
    ensures Enums.FromValue(DrainModeDecl, v).Some? <==> 0 <= v <= 1
    ensures 0 <= v <= 1 <==> exists m: DrainMode :: m.Value() == v
    ensures 0 <= v <= 1 ==> Enums.FromValue(DrainModeDecl, v) == Some(DrainModeDecl[v])
  {
    assert !Enums.HasName(DrainModeDecl, Enums.UnknownName);
    if 0 <= v <= 1 {
      assert [External, DrainFree][v].Value() == v;
      assert DrainModeDecl[v].value == v;
      Enums.FromValueOfMember(DrainModeDecl, v);
    }
  }

  /** The codes of the Wave 2 enumerations are `0 .. n-1` in declaration
      order, so a code is declared exactly when it is below the number of
      members. */
  lemma DeclaredCodes(v: int)
    ensures Enums.HasValue(FanGearDecl, v) <==> 0 <= v < |FanGearDecl|
    ensures Enums.HasValue(PowerModeDecl, v) <==> 0 <= v < |PowerModeDecl|
    ensures Enums.HasValue(SubModeDecl, v) <==> 0 <= v < |SubModeDecl|
    ensures Enums.HasValue(WaterLevelDecl, v) <==> 0 <= v < |WaterLevelDecl|
  {
    DenseCodes(FanGearDecl, v);
    DenseCodes(PowerModeDecl, v);
    DenseCodes(SubModeDecl, v);
    DenseCodes(WaterLevelDecl, v);
  }

  lemma DenseCodes(decl: Enums.Decl, v: int)
    requires forall k :: 0 <= k < |decl| ==> decl[k].value == k
    ensures Enums.HasValue(decl, v) <==> 0 <= v < |decl|
  {
    if 0 <= v < |decl| {
      assert decl[v].value == v;
    }
  }

  // ---------------------------------------------------------------------
  // Reading the drain state

  /** `DrainMode.from_wte`: under COLD codes 1 and 3 mean drain-free, under
      any other main mode only code 3 does. */
  function FromWte(mainMode: MainMode, value: int): (r: DrainMode)
    ensures r == DrainFree <==> value == 3 || (mainMode == Cold && value == 1)
  {
    if mainMode == Cold then
      if value in {1, 3} then DrainFree else External
    else if value == 3 then DrainFree else External
  }

  /** The `automatic_drain` projection of `wte_fth_en`. */
  function AutomaticDrain(wteFthEn: int): (r: bool)
    ensures r <==> 0 <= wteFthEn <= 1
  {
    wteFthEn in {0, 1}
  }

  /** The Wave 2 properties the drain logic reads or writes. */
  datatype State = State(
    mainMode: Option<MainMode>,
    wteFthEn: Option<int>,
    automaticDrain: Option<bool>,
    drainMode: Option<DrainMode>)

  /** Python truthiness of the optional `automatic_drain`. */
  predicate AutomaticDrainOn(st: State) {
    st.automaticDrain == Some(true)
  }

  // ---------------------------------------------------------------------
  // Outgoing packets

  /** `_send_config_packet`: every command goes from 0x21 to 0x42 under
      command set 0x42 with packet version 2; only the command id and the
      payload vary. */
  function ConfigPacket(cmdId: Byte, payload: seq<Byte>): (p: Packet)
    ensures IsConfigPacket(p) && p.cmdId == cmdId && p.payload == payload
  {
    Packet(0x21, 0x42, 0x42, cmdId, payload, 2)
  }

  predicate IsConfigPacket(p: Packet) {
    p.src == 0x21 && p.dst == 0x42 && p.cmdSet == 0x42 && p.version == 2
  }

  const CmdSetTemperature: Byte := 0x58
  const CmdSetDrain: Byte := 0x59
  const CmdSetMainMode: Byte := 0x51
  const CmdSetSubMode: Byte := 0x52
  const CmdSetPowerMode: Byte := 0x5B
  const CmdSetAmbientLight: Byte := 0x5C
  const CmdSetFanSpeed: Byte := 0x5E

  /** The `wte_fth_en` code `set_drain_mode` writes. */
  function DrainModeCode(st: State, mode: DrainMode): (code: Byte)
    ensures code <= 3
    ensures !AutomaticDrainOn(st) ==> code == 2 + mode.Value()
    ensures AutomaticDrainOn(st) && st.mainMode != Some(Cold) ==> code == 1
    ensures AutomaticDrainOn(st) && st.mainMode == Some(Cold) ==> code == mode.Value()
  {
    if !AutomaticDrainOn(st) then (if mode == External then 2 else 3)
    else if st.mainMode != Some(Cold) then 1
    else if mode == External then 0 else 1
  }

  /** `set_drain_mode`: one packet 0x59 carrying the code. */
  function SetDrainMode(st: State, mode: DrainMode): (p: Packet)
    ensures IsConfigPacket(p) && p.cmdId == CmdSetDrain && p.payload == [DrainModeCode(st, mode)]
    ensures p.payload[0] <= 3
  {
    ConfigPacket(CmdSetDrain, [DrainModeCode(st, mode)])
  }

  /** What the device reports back for the code `set_drain_mode` writes:
      the automatic-drain flag is kept, and the requested drain mode is read
      back, except that with automatic drain on outside COLD the code 1 reads
      back as EXTERNAL whatever was requested. */
  lemma SetDrainModeReadsBack(st: State, mainMode: MainMode, mode: DrainMode)
    requires st.mainMode == Some(mainMode)
    ensures var code := SetDrainMode(st, mode).payload[0];
            && AutomaticDrain(code) == AutomaticDrainOn(st)
            && FromWte(mainMode, code) == (if AutomaticDrainOn(st) && mainMode != Cold then External else mode)
  {
  }

  /** The payload computed by the branches of `enable_automatic_drain`; the
      method overwrites it before sending (see `EnableAutomaticDrain`). */
  function EnableAutomaticDrainBranchCode(st: State, enabled: bool): (code: Byte)
    // the branches compute what `set_drain_mode` would write for the
    // current drain mode with the requested automatic-drain flag
    ensures code == DrainModeCode(st.(automaticDrain := Some(enabled)), st.drainMode.GetOr(External))
  {
    var drainMode := st.drainMode.GetOr(External);
    if !enabled then (if drainMode == External then 2 else 3)
    else if st.mainMode != Some(Cold) then 1
    else if drainMode == External then 0 else 1
  }

  /** The code `enable_automatic_drain` sends:
      `(0 if enabled else 0b10) | drain_mode.value`, a missing drain mode
      counting as EXTERNAL. The main mode plays no part. */
  function EnableAutomaticDrainCode(st: State, enabled: bool): (code: Byte)
    ensures code <= 3
    // bit 1 is set exactly when automatic drain is being disabled ...
    ensures code / 2 == (if enabled then 0 else 1)
    // ... and bit 0 carries the current drain mode
    ensures code % 2 == st.drainMode.GetOr(External).Value()
    ensures AutomaticDrain(code) == enabled
  {
    (if enabled then 0 else 2) + st.drainMode.GetOr(External).Value()
  }

  /** The main mode plays no part in what `enable_automatic_drain` sends. */
  lemma EnableAutomaticDrainIgnoresMainMode(st: State, enabled: bool, mainMode: Option<MainMode>)
    ensures EnableAutomaticDrain(st.(mainMode := mainMode), enabled) == EnableAutomaticDrain(st, enabled)
  {
  }

  /** `enable_automatic_drain`: one packet 0x59 carrying the code. */
  function EnableAutomaticDrain(st: State, enabled: bool): (p: Packet)
    ensures IsConfigPacket(p) && p.cmdId == CmdSetDrain && p.payload == [EnableAutomaticDrainCode(st, enabled)]
  {
    ConfigPacket(CmdSetDrain, [EnableAutomaticDrainCode(st, enabled)])
  }

  /** The overwritten branch result and the code actually sent differ only
      when enabling automatic drain outside COLD with the drain mode
      EXTERNAL (1 against 0), and both codes read back as the same
      `automatic_drain` flag and the same drain mode. */
  lemma EnableAutomaticDrainOverwriteIsHarmless(st: State, enabled: bool, mainMode: MainMode)
    requires st.mainMode == Some(mainMode)
    ensures var branch := EnableAutomaticDrainBranchCode(st, enabled);
            var sent := EnableAutomaticDrainCode(st, enabled);
            && (branch != sent <==> enabled && mainMode != Cold && st.drainMode.GetOr(External) == External)
            && AutomaticDrain(branch) == AutomaticDrain(sent)
            && FromWte(mainMode, branch) == FromWte(mainMode, sent)
  {
  }

  /** The code `enable_automatic_drain` sends reads back as the requested
      flag and the current drain mode, except that outside COLD automatic
      drain always reads back EXTERNAL. */
  lemma EnableAutomaticDrainReadsBack(st: State, enabled: bool, mainMode: MainMode)
    requires st.mainMode == Some(mainMode)
    ensures var code := EnableAutomaticDrainCode(st, enabled);
            && AutomaticDrain(code) == enabled
            && FromWte(mainMode, code) ==
               (if enabled && mainMode != Cold then External else st.drainMode.GetOr(External))
  {
  }

  /** Whether `set_main_mode` also has to switch the drain to EXTERNAL:
      automatic drain is on, the drain mode is not EXTERNAL (a missing one
      is not), and the new mode is not COLD. */
  predicate MainModeForcesExternal(st: State, mode: MainMode): (r: bool)
    // forcing happens only when the recorded drain mode is not EXTERNAL ...
    ensures r ==> st.drainMode != Some(External)
    // ... while under the new mode every automatic-drain code reads back as
    // EXTERNAL, so the recorded mode would disagree with the device
    ensures r ==> forall c :: AutomaticDrain(c) ==> FromWte(mode, c) == External
    // without automatic drain, or when switching to COLD, nothing is forced
    ensures !AutomaticDrainOn(st) || mode == Cold ==> !r
  {
    AutomaticDrainOn(st) && st.drainMode != Some(External) && mode != Cold
  }

  /** `set_main_mode`: the packets sent, in order, and the new state. */
  function SetMainMode(st: State, mode: MainMode): (r: (seq<Packet>, State))
    ensures |r.0| >= 1 && r.0[0] == ConfigPacket(CmdSetMainMode, [mode.Value()])
    ensures |r.0| == 2 <==> MainModeForcesExternal(st, mode)
    ensures |r.0| == 2 ==> r.0[1] == ConfigPacket(CmdSetDrain, [1]) && r.1 == st.(drainMode := Some(External))
    ensures |r.0| == 1 ==> r.1 == st
  {
    var modePacket := ConfigPacket(CmdSetMainMode, [mode.Value()]);
    if MainModeForcesExternal(st, mode) then
      ([modePacket, ConfigPacket(CmdSetDrain, [1])], st.(drainMode := Some(External)))
    else ([modePacket], st)
  }

  /** When `set_main_mode` forces the drain, the code it sends reads back
      under the new main mode as automatic drain to EXTERNAL, which is the
      drain mode it records. */
  lemma SetMainModeKeepsDrainConsistent(st: State, mode: MainMode)
    requires MainModeForcesExternal(st, mode)
    ensures var (packets, st') := SetMainMode(st, mode);
            && AutomaticDrain(packets[1].payload[0])
            && Some(FromWte(mode, packets[1].payload[0])) == st'.drainMode
  {
  }

  /** The commands of the adapter. */
  datatype Command =
    | EnableAmbientLight(on: bool)
    | EnableAutomaticDrainCmd(enabled: bool)
    | SetDrainModeCmd(drainMode: DrainMode)
    | SetFanSpeed(gear: nat)
    | SetMainModeCmd(mainMode: MainMode)
    | SetPowerMode(powerMode: nat)
    | SetTemperature(temperature: int)
    | SetSubMode(subMode: nat)

  /** The packets each command sends and the state after it. `None` is the
      `OverflowError` of `int.to_bytes()` on a temperature outside one
      unsigned byte. Fan gears, power modes and sub modes are their
      enumeration codes, which must be codes their enumeration declares (see `DeclaredCodes`). */
  function Send(st: State, cmd: Command): (r: Option<(seq<Packet>, State)>)
    requires cmd.SetFanSpeed? ==> cmd.gear < |FanGearDecl|
    requires cmd.SetPowerMode? ==> cmd.powerMode < |PowerModeDecl|
    requires cmd.SetSubMode? ==> cmd.subMode < |SubModeDecl|
    ensures r.None? <==> cmd.SetTemperature? && !(0 <= cmd.temperature < 256)
    ensures r.Some? ==> |r.value.0| >= 1
    ensures r.Some? ==> forall p :: p in r.value.0 ==> IsConfigPacket(p) && |p.payload| == 1
    ensures r.Some? && !cmd.SetMainModeCmd? ==> r.value.1 == st
    // the packet of each command
    ensures cmd.EnableAmbientLight? ==>
              r == Some(([ConfigPacket(CmdSetAmbientLight, [if cmd.on then 0x01 else 0x02])], st))
    ensures cmd.EnableAutomaticDrainCmd? ==> r == Some(([EnableAutomaticDrain(st, cmd.enabled)], st))
    ensures cmd.SetDrainModeCmd? ==> r == Some(([SetDrainMode(st, cmd.drainMode)], st))
    ensures cmd.SetFanSpeed? ==> r.value.0 == [ConfigPacket(CmdSetFanSpeed, [cmd.gear])]
    ensures cmd.SetMainModeCmd? ==> r == Some(SetMainMode(st, cmd.mainMode))
    ensures cmd.SetPowerMode? ==> r.value.0 == [ConfigPacket(CmdSetPowerMode, [cmd.powerMode])]
    ensures cmd.SetTemperature? && r.Some? ==> r.value.0 == [ConfigPacket(CmdSetTemperature, [cmd.temperature])]
    ensures cmd.SetSubMode? ==> r.value.0 == [ConfigPacket(CmdSetSubMode, [cmd.subMode])]
  {
    match cmd
    case EnableAmbientLight(on) => Some(([ConfigPacket(CmdSetAmbientLight, [if on then 0x01 else 0x02])], st))
    case EnableAutomaticDrainCmd(enabled) => Some(([EnableAutomaticDrain(st, enabled)], st))
    case SetDrainModeCmd(mode) => Some(([SetDrainMode(st, mode)], st))
    case SetFanSpeed(gear) => Some(([ConfigPacket(CmdSetFanSpeed, [gear])], st))
    case SetMainModeCmd(mode) => Some(SetMainMode(st, mode))
    case SetPowerMode(mode) => Some(([ConfigPacket(CmdSetPowerMode, [mode])], st))
    case SetTemperature(t) =>
      if 0 <= t < 256 then Some(([ConfigPacket(CmdSetTemperature, [t])], st)) else None
    case SetSubMode(mode) => Some(([ConfigPacket(CmdSetSubMode, [mode])], st))
  }

  // ---------------------------------------------------------------------
  // Processing one notification

  const SnPrefix: seq<Byte> := [0x4B, 0x54, 0x32, 0x31]  // b"KT21"

  /** `check`: `sn.startswith(b"KT21")`. */
  function Check(sn: seq<Byte>): (r: bool)
    ensures r <==> |sn| >= 4 && sn[..4] == SnPrefix
  {
    SnPrefix <= sn
  }

  /** The heartbeat `KT210SAC` arrives from 0x42 under command set 0x42 with
      command id 0x50; nothing else is processed. */
  predicate IsHeartbeat(p: Packet) {
    p.src == 0x42 && p.cmdSet == 0x42 && p.cmdId == 0x50
  }

  /** The drain mode agrees with the last reported code and main mode. */
  predicate DrainModeDerived(st: State) {
    st.wteFthEn.Some? && st.mainMode.Some? ==> st.drainMode == Some(FromWte(st.mainMode.value, st.wteFthEn.value))
  }

  /** The outcome of `data_parse`: the new state, whether the packet was
      processed, and whether `drain_mode` was pushed to the state sink
      explicitly. */
  datatype ParseOutcome = ParseOutcome(state: State, processed: bool, drainModePushed: bool)

  /** `data_parse`. `project` stands for `update_from_bytes`, the mapping of
      the decoded heartbeat onto the properties, which is not modelled. */
  function DataParse(st: State, pkt: Packet, project: (State, seq<Byte>) -> State): (r: ParseOutcome)
    ensures r.processed <==> IsHeartbeat(pkt)
    ensures !r.processed ==> r.state == st && !r.drainModePushed
    ensures r.processed ==> DrainModeDerived(r.state)
    ensures r.processed ==>
              var projected := project(st, pkt.payload);
              && (r.drainModePushed <==> projected.wteFthEn.Some? && projected.mainMode.Some?)
              && (!r.drainModePushed ==> r.state == projected)
              && r.state == projected.(drainMode := r.state.drainMode)
  {
    if !IsHeartbeat(pkt) then ParseOutcome(st, false, false)
    else
      var projected := project(st, pkt.payload);
      if projected.wteFthEn.Some? && projected.mainMode.Some? then
        ParseOutcome(projected.(drainMode := Some(FromWte(projected.mainMode.value, projected.wteFthEn.value))), true, true)
      else ParseOutcome(projected, true, false)
  }
}
